=== FILE: README.md ===
# Document assistant core, modelled in Dafny

This project models the core of a retrieval-augmented document assistant.
An ingestion service walks a directory of PDF, DOCX and TXT files. It skips
the files its ledger already lists. Every other file is parsed, split into
chunks, embedded in one call and upserted into a vector store. The ledger
records the file only after the store call returns. A failure in any of
these steps is caught, and the run moves on to the next file.

A question-answering service embeds a question and searches the store. It
keeps the usable passage text of the results, in order. It then either
answers with a fixed fallback message or passes the question and the
passages to a language model.

Around these two flows the project models:

- the parser's hierarchical tags and its Document assembly;
- the vector store's record ids, upsert and result formatting;
- the command line's tag parsing;
- the inspector's truncation, metadata formatting and statistics counting.

The modules follow the program's layout:

| file | module | models |
|---|---|---|
| base.dfy | `Base` | options, results and the exceptions that can occur; dynamically typed metadata values and dictionaries |
| text.dfy | `Text` | the Python string operations used: strip, split, join, ASCII lower-casing, path suffix and stem |
| domain.dfy | `Domain` | Document, Chunk and Query |
| parser.dfy | `Parser` | tag derivation and Document assembly |
| chroma_store.dfy | `ChromaStore` | `add_documents` and `search` over a map from record id to entry |
| ingestion.dfy | `Ingestion` | supported files, the ledger, per-chunk metadata, one file's pipeline, and the run |
| qa.dfy | `QA` | `ask` |
| cli.dfy | `Cli` | `parse_tags` |
| inspector.dfy | `Inspector` | `truncate_text`, `format_metadata`, and the counting in `calculate_statistics` |
| pipeline.dfy | `Pipeline` | how an ingestion batch meets the vector store |

The code is modelled with these conventions:

- **Collaborators are function-valued fields.** This covers the parser, the text splitter, the uuid4 supply, the embedder, the store, the language model, the iteration order of Python's `set`, and the outcome of the ledger write. An exception is a `Failure` value.
- **The run records every call.** It keeps a log of per-file events and the list of collaborator calls made, so that call counts and call order can be stated.
- **Dictionaries are ordered lists of pairs.** Metadata is a list of (key, value) pairs in insertion order, and a lookup returns the first match.

Some behaviours of the code worth knowing:

- **Tags.** Tags drop the first two path components, whatever they are.
- **Ledger load.** Only malformed JSON, or an absent file, gives an empty ledger. A file that cannot be read, or JSON that `set()` cannot iterate, raises and aborts the service's construction.
- **Score range.** The score is `1 - distance`. For cosine distances in [0, 2] it lies in [-1, 1], and it is negative for distances above 1.
- **Result order.** Results are in descending score order only when the database returns rows by increasing distance.
- **Ledger write.** The path is added to the in-memory ledger before the ledger is written. A failed write therefore leaves the path in memory, while the file on disk is unchanged (open failed) or truncated (write interrupted). The model logs this as a failure at the recording stage, and the path counts as stored.

## Model

| member | source | states |
|---|---|---|
| Base.NatToDecimalValue | src/infrastructure/vector/chroma_store.py:37 | the digits an f-string writes for a non-negative integer id denote that integer |
| Text.Strip | src/main.py:45 | the result is the input with only whitespace removed at both ends, and has no whitespace at either end |
| Text.CleanSplitJoin | src/main.py:48 | reading back a comma join of non-empty, stripped, comma-free tags gives the same tags |
| Text.StemSuffix | src/infrastructure/parser/unstructured_parser.py:29 | a file name's stem followed by its suffix is the name |
| Text.StemOfSingleDot | src/infrastructure/parser/unstructured_parser.py:29 | the stem of a name with a single dot that is its suffix has no suffix of its own |
| Parser.TagDirectories | src/infrastructure/parser/unstructured_parser.py:67 | tag directories are the components after the first two, without the file name: none for at most three components, otherwise three fewer than the components, with directory i being component i + 2 |
| Parser.ExtractTagsFromPath | src/infrastructure/parser/unstructured_parser.py:64-82 | the nested loop yields exactly the reference tags: tag i joins the first i + 1 tag directories with "-", one tag per directory |
| Parser.TagsExtendPrevious | src/infrastructure/parser/unstructured_parser.py:69-80 | the first tag is the first directory, and every later tag is the previous tag, a hyphen and the next directory |
| Parser.TagsStartWithTopLevel | src/infrastructure/parser/unstructured_parser.py:75-80 | every tag begins with the first-level directory |
| Parser.PathTags | src/infrastructure/parser/unstructured_parser.py:51-82 | no tags for at most three components; otherwise one tag per intermediate directory, the first being the third component |
| Parser.DocstringExamples | src/infrastructure/parser/unstructured_parser.py:53-56 | `.data/raw/hr/policy.pdf` gives `["hr"]`, `data/raw/hr/regional/policy.pdf` gives `["hr", "hr-regional"]` |
| Parser.Parse | src/infrastructure/parser/unstructured_parser.py:12-49 | a partitioning failure propagates; otherwise the given id and path text, a name that the file's suffix completes to the file name, the derived tags, and the elements joined by newlines as content: empty for no elements, and splitting on newlines back into the elements when none of them contains a newline; the result is the Document that ParsedDocument assembles |
| Parser.ParsedDocument | src/infrastructure/parser/unstructured_parser.py:41-47 | the assembled Document carries the id, path text and derived tags, a name the suffix completes to the file name, and the elements joined by newlines as content, which splits back into the elements when none of them contains a newline |
| ChromaStore.MakeBatch | src/infrastructure/vector/chroma_store.py:36-40 | ids and documents are aligned with the metadata; each id is document id, "_" and chunk id (missing keys read as ""); each document is the metadata's content value when present, and "" when absent |
| ChromaStore.Upsert | src/infrastructure/vector/chroma_store.py:43-48 | the keys become the old keys plus the given ids; other keys keep their entries; with distinct ids every id maps to its own entry |
| ChromaStore.AddDocuments | src/infrastructure/vector/chroma_store.py:28-48 | succeeds exactly when lengths agree, the batch is non-empty and ids are distinct; an empty batch is refused with the database's message; on success each record id maps to (embedding, document, metadata) of its position and every other key is unchanged |
| ChromaStore.UpsertIdempotent | src/infrastructure/vector/chroma_store.py:43-48 | upserting the same distinct ids and entries again changes nothing |
| ChromaStore.AddDocumentsIdempotent | src/infrastructure/vector/chroma_store.py:43-48 | adding the same batch twice leaves the collection as one add left it: no duplicates |
| ChromaStore.RecordIdInjective | src/infrastructure/vector/chroma_store.py:37 | when no part contains "_", equal record ids come from equal (document id, chunk id) pairs |
| ChromaStore.FormatResults | src/infrastructure/vector/chroma_store.py:67-77 | IndexError exactly when a column is shorter than the ids; otherwise one result per id, with id, metadata and content from the same position and score plus distance equal to 1 |
| ChromaStore.ScoresDescend | src/infrastructure/vector/chroma_store.py:74 | rows by increasing distance give results by decreasing score |
| ChromaStore.ScoreRange | src/infrastructure/vector/chroma_store.py:74 | a distance in [0, 2] gives a score in [-1, 1], non-negative exactly when the distance is at most 1 |
| ChromaStore.AddDocumentsMatch | src/infrastructure/vector/chroma_store.py:36-48 | when every stored document equals its metadata's content, it still does after an add |
| ChromaStore.ResultsCarryStoredContent | src/infrastructure/vector/chroma_store.py:61-77 | rows that name entries of such a collection always format, and each result's content is the stored document, equal to the content in the result's own metadata |
| Ingestion.SupportIgnoresCase | src/application/ingestion_service.py:115-118 | a name is supported exactly when its lower-cased form is |
| Ingestion.SupportedByExtension | src/application/ingestion_service.py:115-118 | a non-empty stem followed by .pdf, .docx or .txt in any letter case is supported, and that extension is its suffix |
| Ingestion.DotFileUnsupported | src/application/ingestion_service.py:115-118 | a name whose only dot is its first character has no suffix and is not supported |
| Ingestion.SupportExamples | src/application/ingestion_service.py:115-118 | `policy.PDF` and `notes.v2.Txt` are supported, `.txt` and `readme.md` are not |
| Ingestion.SupportedFiles | src/application/ingestion_service.py:107-113 | a path is listed exactly when some walked entry with that path is a regular file with a supported name |
| Ingestion.LoadLedger | src/application/ingestion_service.py:120-135 | an absent or malformed file gives the empty ledger; an unreadable file or a JSON scalar raises; a list, object or string gives the elements iteration yields |
| Ingestion.MarkAsProcessed | src/application/ingestion_service.py:137-145 | the path joins the in-memory ledger; the written list is the set's iteration order of the new ledger and the outcome is the write's result on that list; after a successful write the file loads back to exactly that ledger; an open failure leaves the old file; an interrupted write leaves a file that loads as empty |
| Ingestion.MarkIsSetAdd | src/application/ingestion_service.py:137-140 | recording a recorded path leaves the ledger as it was, and recording twice equals recording once |
| Ingestion.ChunkMetadata | src/application/ingestion_service.py:72-80 | the chunk's dictionary has distinct keys and looks up to the document id, chunk id, comma-joined tags, name, path, position and chunk text |
| Ingestion.BuildChunks | src/application/ingestion_service.py:65-94 | one chunk per text in text order, with the document id and given chunk ids; the metadata are aligned with the texts; the texts to embed are the split texts |
| Ingestion.FreshIds | src/application/ingestion_service.py:69 | the next n ids of the supply, pairwise distinct when the supply never repeats |
| Ingestion.Start | src/application/ingestion_service.py:32-33 | construction succeeds exactly when the ledger loads, starting from the loaded ledger with no events or calls, drawing uuid4 values from the given supply position |
| Ingestion.StepSkips | src/application/ingestion_service.py:50-53 | a path in the ledger is logged as skipped and nothing else changes |
| Ingestion.StepShape | src/application/ingestion_service.py:49-105 | one event per file, skipped exactly when listed; the ledger gains the path exactly when the event says the store call returned (StepCalls ties that event to the store's result); store and ledger file are unchanged otherwise; a successful write persists the ledger |
| Ingestion.StepCalls | src/application/ingestion_service.py:58-101 | for an unlisted file: parse first; then one embed call with the chunk texts; then the store with those vectors and aligned metadata; then the ledger write exactly when the store returned; an embed or store failure is logged at its stage with its error; after the write the file is ingested exactly when the write succeeded, and otherwise fails at recording |
| Ingestion.EmptyDocumentRecorded | src/application/ingestion_service.py:62-101 | a document that splits into no chunks is still embedded (with no texts); when the embedder and the store accept empty lists, it is stored and recorded |
| Ingestion.ProgressStep | src/application/ingestion_service.py:49-105 | one more file keeps the run's invariant: events match files; ledger = initial ledger plus stored paths; calls only grow; an all-skip run changes nothing; the ledger file follows the last store |
| Ingestion.StepAllProgress | src/application/ingestion_service.py:49-105 | processing any list of files one after another, from any state, keeps that invariant |
| Ingestion.Run | src/application/ingestion_service.py:35-105 | a missing directory or a non-directory raises ValueError with the program's message; otherwise the final state is every supported file stepped one after another in walk order, and the invariant holds for it |
| Ingestion.RecordedIffStored | src/application/ingestion_service.py:98-105 | a file not listed before the run is listed after it exactly when its event says the store call returned, which by StepCalls is exactly when the store accepted its batch |
| Ingestion.FailedEarlyNotRecorded | src/application/ingestion_service.py:55-105 | a file that raised before its store call returned is not in the final ledger |
| Ingestion.AllRecorded | src/application/ingestion_service.py:49-101 | after a run without early failures every processed file is in the ledger |
| Ingestion.RerunSkipsAll | src/application/ingestion_service.py:49-53 | a run over listed files skips each one and leaves calls, store, ledger and ledger file unchanged |
| Ingestion.ReloadGivesLedger | src/application/ingestion_service.py:120-145 | when a run started from a loaded ledger file and its last recording was written in full, the file it leaves loads back to exactly its ledger |
| Ingestion.RunTwice | src/ingest_documents.py:46-57 | running the ingestion script twice, each time constructing a service that reloads the ledger file over the same store, the second drawing uuid4 values where the first stopped: when the first run had no early failure and its last recording was written in full, the second run logs every file as skipped, calls nothing, and leaves store, ledger and ledger file as the first run did |
| Ingestion.RunSameServiceTwice | src/application/ingestion_service.py:35-105 | running one service instance twice: when the first run had no early failure, the second logs every file as skipped and changes no call list, store, ledger or ledger file |
| QA.ContextFails | src/application/qa_service.py:59-67 | context extraction raises exactly when some result has no content and a None metadata |
| QA.ContextAppend | src/application/qa_service.py:59-67 | the context of consecutive result lists is the concatenation of their contexts: order is kept |
| QA.ContextMembers | src/application/qa_service.py:59-67 | a passage is in the context exactly when some result's content, or its metadata fallback, is that truthy value |
| QA.EmptyContentDropped | src/application/qa_service.py:62-67 | a result whose own content is the empty string contributes nothing, whatever its metadata holds |
| QA.ExtractContext | src/application/qa_service.py:59-67 | the loop computes the reference context: usable passages in order, at most one per result |
| QA.Ask | src/application/qa_service.py:33-80 | embed is called with the question alone; an embedder failure or empty result raises; search uses the first vector and the query's top_k; a search failure, or an AttributeError while extracting the context, is returned after exactly the embed and search calls; no usable passage gives the fallback message without calling the model; otherwise one model call with the question and context, whose result is returned |
| QA.AnswerAtMostOnce | src/application/qa_service.py:69-80 | the language model is called at most once, and exactly when all three calls happen |
| QA.AnswerIgnoresTags | src/application/qa_service.py:33-80 | the query's tags change neither the answer nor the calls |
| QA.HitOf | src/infrastructure/vector/chroma_store.py:70-75 | a store result always has a metadata key, present or None, and passes its content unchanged |
| QA.StoredDocumentsFormContext | src/application/qa_service.py:59-67 | results drawn from a collection never raise, and the context holds exactly their truthy stored documents |
| Cli.ParseTags | src/main.py:43-49 | None exactly when no stripped piece is non-empty, always for blank input; otherwise at least one and at most commas + 1 tags, each non-empty, stripped and comma-free |
| Cli.BlankHasNoTags | src/main.py:45-48 | the early return for blank input agrees with the piece filter |
| Cli.ParseTagsJoin | src/main.py:48 | parsing the comma join of clean tags gives those tags |
| Cli.ParseTagsStable | src/main.py:43-49 | parsing, joining with commas and parsing again gives the same tags |
| Cli.ParseTagsExamples | src/main.py:43-49 | "" and "  " give None, "hr" gives ["hr"] |
| Inspector.PrefixSlice | src/dev/view_vector_store.py:41 | a prefix of the text whose length is the bound, clamped, counting from the end for a negative bound |
| Inspector.TruncateText | src/dev/view_vector_store.py:35-41 | "" exactly for no or empty text; a short enough text unchanged; otherwise a prefix and "...", of length max + 3 for a non-negative max, never longer |
| Inspector.TruncateIdempotent | src/dev/view_vector_store.py:35-41 | truncating a truncated text again changes nothing |
| Inspector.ShownAppend | src/dev/view_vector_store.py:50-57 | the entries follow the mapping's order |
| Inspector.ShownMembers | src/dev/view_vector_store.py:50-57 | every non-content pair appears as "key: value", and every entry comes from a non-content pair |
| Inspector.ShownIgnoresContent | src/dev/view_vector_store.py:51-55 | dropping every "content" pair leaves the entries unchanged |
| Inspector.FormatIgnoresContentValue | src/dev/view_vector_store.py:44-57 | changing the stored text changes nothing in the formatted metadata |
| Inspector.ContentOnlyFormatsEmpty | src/dev/view_vector_store.py:46-57 | a mapping with only the content formats to "", not "No metadata" |
| Inspector.TagsOf | src/dev/view_vector_store.py:91-95 | a record raises exactly when its tags value is a non-zero integer; otherwise every counted tag is non-empty, stripped and comma-free |
| Inspector.FileType | src/dev/view_vector_store.py:97-102 | reading the type from a key (`filename` as written, `path` as corrected) raises exactly for a non-zero integer value; a missing key counts nothing; a counted type is the suffix of the value's last component, a dot and at least one character, and ends the value |
| Inspector.NotCountable | src/dev/view_vector_store.py:79-118 | one raising record makes the whole statistics empty |
| Inspector.MaxBound | src/dev/view_vector_store.py:111 | the largest per-document count is at most the number of counted records |
| Inspector.AddRecordTallies | src/dev/view_vector_store.py:83-102 | counting one more record keeps the Counters equal to the counts of all records so far |
| Inspector.CalculateStatistics | src/dev/view_vector_store.py:60-118 | with the type read from `filename` this is the code, with `path` the corrected count; empty for a failed read, no entries, or a raising record; otherwise total vectors, per-document counts of the non-empty records ("unknown" without an id) summing to their number, the distinct documents, tag and type counts, and the largest per-document count |
| Inspector.IngestedTagsCounted | src/dev/view_vector_store.py:91-95 | counting a stored chunk's tags gives back exactly its document's clean tags: the split inverts the comma join |
| Inspector.FileTypeLostAsWritten | src/dev/view_vector_store.py:97-102 | as written, a stored chunk of a single-dot file name is counted under no type |
| Inspector.FileTypeExample | src/dev/view_vector_store.py:97-102 | for data/raw/hr/policy.pdf: no type as written, ".pdf" as intended |
| Inspector.IngestedFileTypeCounted | src/dev/view_vector_store.py:97-102 | as intended, a stored chunk is counted under its file's suffix, a supported extension for an ingested file |
| Pipeline.ChunkRecordId | src/infrastructure/vector/chroma_store.py:37-40 | a chunk's record id is its document id, "_" and chunk id, and its stored document is its text |
| Pipeline.BatchIdsDistinct | src/infrastructure/vector/chroma_store.py:37 | with underscore-free, distinct uuid ids one document's batch never repeats a record id |
| Pipeline.IngestedBatchStored | src/application/ingestion_service.py:93-98 | the store accepts a document's batch exactly when it has chunks and there is one vector per chunk, and then holds each chunk's vector, text and metadata under its record id |
| Pipeline.EmptyDocumentNotRecorded | src/application/ingestion_service.py:62-105 | with the real store, a document that splits into no chunks fails before recording and is not in the ledger; when the empty embedding succeeds, the store refuses it with the database's message |

## Left out

- The text splitter is a library with chunk size and overlap settings. Its output is an uninterpreted function, so no chunk size or coverage is claimed.
- Document partitioning, the embedder, the language model and Chroma's internals (persistence, nearest-neighbour search) are collaborators. Of the database's own validation, the model keeps the refusal of lists of unequal lengths, of an empty id list and of ids repeated within one call; of the order in which the database checks these, only that the empty-list error wins is stated. The errors for unequal lengths ("Unequal lengths for fields") and for repeated ids (a `ValueError` "Expected IDs to be unique", where the database raises `DuplicateIDError`) are placeholders; only the empty-list message is the database's.
- Filesystem access is left out: the directory walk is an input list of entries, and the ledger file is an input state. Directory creation, the JSON encoding and `indent` are also left out.
- A JSON list holding non-strings, and the error for unhashable elements, are not modelled; list items are strings.
- uuid4 generation is a supply `nat -> string`. Freshness is assumed where needed (`Injective`, or distinct ids without underscores); a service constructed later is given the position where the previous one stopped.
- Python's set iteration order is the `order` collaborator. Properties of the persisted list hold when it lists the set exactly.
- Printing, the interactive prompts of the command line, `setup_dependencies`, configuration, and the inspector's display and table code are left out.
- Text.Lower: only ASCII letters are lower-cased. For membership in the three ASCII extensions this decides the same as Python's `str.lower`.
- Path parsing is left out. A path arrives with its components and final name already split. Path texts use "/" as the separator. `BaseName` does not normalise trailing slashes or "." components as `Path` does.
- Float arithmetic (`avg_chunks_per_doc`), the `most_common` orderings (`top_tags`, the order of `file_types`) and the read limit of 10000 items are not modelled. Counters are multisets, and only their counts are stated.
- Metadata values other than strings and integers (floats, booleans) are not modelled.
- Ingestion.MarkIsSetAdd: every collaborator, the ledger `write` included, is a function of its arguments, so writing the same list again has the same outcome; in Python a rewrite can fail where the first write succeeded, or the other way round. The set-add property of the in-memory ledger does not depend on this.
- The parser's `Env.parse` collaborator is a function of the path, so parsing the same file twice gives the same document id, while the parser mints a fresh uuid4 on each call (src/infrastructure/parser/unstructured_parser.py:26).

## Findings

| source | as written | input that shows it | evidently intended | confidence | as-written member | corrected member |
|---|---|---|---|---|---|---|
| src/dev/view_vector_store.py:97-102 | the file type is the suffix of the `filename` metadata, which ingestion fills with the file's stem (`document.name`, src/application/ingestion_service.py:76) | the chunks of data/raw/hr/policy.pdf store filename "policy", whose suffix is "", so no `.pdf` is counted; `notes.v2.txt` is counted as ".v2" | count each chunk under its file's extension, e.g. ".pdf" | high, not executed | Inspector.FileTypeLostAsWritten | Inspector.IngestedFileTypeCounted |

=== FILE: base.dfy ===
/**
 * Shared vocabulary of the model: optional values, results with the
 * exceptions the system raises or lets through, and the dynamically typed
 * dictionary values it stores next to every vector.
 */
module Base {

  datatype Option<+T> = None | Some(value: T) {
    function GetOr(default: T): T {
      match this
      case Some(v) => v
      case None => default
    }
  }

  /** An exception the system raises, or one a collaborator raises through it. */
  datatype Error =
    | ValueError(message: string)
    | TypeError
    | AttributeError
    | IndexError
    | OSError
    | CollaboratorError(reason: string)

  datatype Result<+T> = Success(value: T) | Failure(error: Error)

  /**
   * A value held in a metadata dictionary. The system writes strings for
   * every field except `chunk_index`, which is an integer.
   */
  datatype Scalar = Str(s: string) | Int(i: int)

  /** Python truthiness: the empty string and zero are false. */
  predicate Truthy(v: Scalar) {
    match v
    case Str(s) => s != ""
    case Int(i) => i != 0
  }

  function DigitChar(d: nat): (c: char)
    requires d < 10
    ensures '0' <= c <= '9' && DigitValue(c) == d
  {
    ('0' as int + d) as char
  }

  /** The number a decimal digit character stands for. */
  function DigitValue(c: char): int {
    c as int - '0' as int
  }

  /** The number a string of decimal digits denotes, most significant first. */
  function DecimalValue(s: string): int
    decreases |s|
  {
    if |s| == 0 then 0 else 10 * DecimalValue(s[..|s| - 1]) + DigitValue(s[|s| - 1])
  }

  /** Decimal notation of a natural number, as Python's str() writes it. */
  function NatToDecimal(n: nat): (r: string)
    ensures |r| >= 1
    ensures forall k :: 0 <= k < |r| ==> '0' <= r[k] <= '9'
    ensures |r| > 1 ==> r[0] != '0'
    decreases n
  {
    if n < 10 then [DigitChar(n)] else NatToDecimal(n / 10) + [DigitChar(n % 10)]
  }

  /** The notation denotes the number it was made from. */
  lemma {:induction false} NatToDecimalValue(n: nat)
    ensures DecimalValue(NatToDecimal(n)) == n
    decreases n
  {
    if n >= 10 {
      NatToDecimalValue(n / 10);
      var r := NatToDecimal(n);
      assert r[..|r| - 1] == NatToDecimal(n / 10);
    }
  }

  /** str(v): the text an f-string shows for a metadata value. */
  function Show(v: Scalar): string {
    match v
    case Str(s) => s
    case Int(i) => if i < 0 then "-" + NatToDecimal(-i) else NatToDecimal(i)
  }

  /**
   * A metadata dictionary: its (key, value) pairs in insertion order, which
   * is the order Python dictionaries iterate in.
   */
  type Metadata = seq<(string, Scalar)>

  /** Keys of a dictionary are pairwise distinct. */
  predicate DistinctKeys(m: Metadata) {
    forall i, j :: 0 <= i < j < |m| ==> m[i].0 != m[j].0
  }

  /** dict.get(key): the value stored under `key`, if any. */
  function Lookup(m: Metadata, key: string): (r: Option<Scalar>)
    ensures r.Some? <==> exists i :: 0 <= i < |m| && m[i].0 == key
    ensures r.Some? ==> exists i :: 0 <= i < |m| && m[i] == (key, r.value)
  {
    if |m| == 0 then None
    else if m[0].0 == key then Some(m[0].1)
    else
      var r := Lookup(m[1..], key);
      assert forall i :: 1 <= i < |m| ==> m[i] == m[1..][i - 1];
      r
  }

  /** dict.get(key, default). */
  function Get(m: Metadata, key: string, default: Scalar): Scalar {
    Lookup(m, key).GetOr(default)
  }

  /** The elements of a sequence are pairwise distinct. */
  predicate Distinct<T(==)>(s: seq<T>) {
    forall i, j :: 0 <= i < j < |s| ==> s[i] != s[j]
  }

  /** A non-empty sequence is its prefix without the last element, then that element. */
  lemma SplitLast<T>(s: seq<T>)
    requires |s| > 0
    ensures s[..|s| - 1] + [s[|s| - 1]] == s
  {
  }
}

=== FILE: chroma_store.dfy ===
/**
 * The vector-store adapter: how it keys and upserts chunk records, and how
 * it turns a nearest-neighbour query's rows into search results. The
 * collection is a map from record id to its stored entry; the similarity
 * search that picks the rows belongs to the database and is an input here.
 */
module ChromaStore {
  import opened Base
  import opened Domain

  /** What the collection keeps under one id. */
  datatype Entry = Entry(embedding: Vector, document: Scalar, metadata: Metadata)

  type Collection = map<string, Entry>

  /** A record's id: its document id and chunk id, each defaulting to the empty string, around an underscore. */
  function RecordId(m: Metadata): string {
    Show(Get(m, "document_id", Str(""))) + "_" + Show(Get(m, "chunk_id", Str("")))
  }

  /** The text stored as the record's document: the chunk text, or the empty string without one. */
  function DocumentOf(m: Metadata): Scalar {
    Get(m, "content", Str(""))
  }

  /** The three lists `add_documents` hands to the upsert, position by position. */
  datatype Batch = Batch(ids: seq<string>, documents: seq<Scalar>, metadatas: seq<Metadata>)

  function MakeBatch(metadatas: seq<Metadata>): (b: Batch)
    ensures |b.ids| == |metadatas| && |b.documents| == |metadatas| && b.metadatas == metadatas
    ensures forall i :: 0 <= i < |metadatas| ==>
              b.ids[i] == Show(Get(metadatas[i], "document_id", Str(""))) + "_" + Show(Get(metadatas[i], "chunk_id", Str("")))
    ensures forall i :: 0 <= i < |metadatas| ==>
              (Lookup(metadatas[i], "content").Some? ==> b.documents[i] == Lookup(metadatas[i], "content").value)
              && (Lookup(metadatas[i], "content").None? ==> b.documents[i] == Str(""))
  {
    Batch(seq(|metadatas|, i requires 0 <= i < |metadatas| => RecordId(metadatas[i])),
          seq(|metadatas|, i requires 0 <= i < |metadatas| => DocumentOf(metadatas[i])),
          metadatas)
  }

  /**
   * Upsert in order: each id ends up mapped to the last entry given for it,
   * every other key keeps its entry.
   */
  function Upsert(c: Collection, ids: seq<string>, entries: seq<Entry>): (c': Collection)
    requires |ids| == |entries|
    ensures c'.Keys == c.Keys + set i | 0 <= i < |ids| :: ids[i]
    ensures forall k :: k in c && k !in ids ==> c'[k] == c[k]
    ensures Distinct(ids) ==> forall i :: 0 <= i < |ids| ==> c'[ids[i]] == entries[i]
    decreases |ids|
  {
    if |ids| == 0 then c
    else
      var r := Upsert(c[ids[0] := entries[0]], ids[1..], entries[1..]);
      assert forall i :: 1 <= i < |ids| ==> ids[i] == ids[1..][i - 1];
      assert (set i | 0 <= i < |ids| :: ids[i]) == {ids[0]} + set i | 0 <= i < |ids[1..]| :: ids[1..][i];
      r
  }

  /**
   * `add_documents`: builds ids and documents from the metadata and upserts
   * them with the embeddings. The database refuses lists of different
   * lengths, an empty id list, and an id repeated within one call; only
   * the empty-list message is the database's own, the other two are
   * placeholders.
   */
  function AddDocuments(c: Collection, embeddings: seq<Vector>, metadatas: seq<Metadata>): (r: Result<Collection>)
    ensures r.Success? <==> |embeddings| == |metadatas| && |metadatas| > 0 && Distinct(MakeBatch(metadatas).ids)
    ensures |metadatas| == 0 ==> r == Failure(ValueError("Expected IDs to be a non-empty list, got 0 IDs"))
    ensures r.Success? ==> r.value.Keys == c.Keys + set i | 0 <= i < |metadatas| :: RecordId(metadatas[i])
    ensures r.Success? ==> forall i :: 0 <= i < |metadatas| ==>
              r.value[RecordId(metadatas[i])] == Entry(embeddings[i], DocumentOf(metadatas[i]), metadatas[i])
    ensures r.Success? ==> forall k :: k in c && k !in MakeBatch(metadatas).ids ==> r.value[k] == c[k]
  {
    var b := MakeBatch(metadatas);
    if |metadatas| == 0 then Failure(ValueError("Expected IDs to be a non-empty list, got 0 IDs"))
    else if |embeddings| != |metadatas| then Failure(ValueError("Unequal lengths for fields"))
    else if !Distinct(b.ids) then Failure(ValueError("Expected IDs to be unique"))
    else
      var entries := seq(|metadatas|, i requires 0 <= i < |metadatas| => Entry(embeddings[i], b.documents[i], metadatas[i]));
      assert (set i | 0 <= i < |b.ids| :: b.ids[i]) == set i | 0 <= i < |metadatas| :: RecordId(metadatas[i]);
      Success(Upsert(c, b.ids, entries))
  }

  /** Upserting the same distinct ids and entries again changes nothing. */
  lemma UpsertIdempotent(c: Collection, ids: seq<string>, entries: seq<Entry>)
    requires |ids| == |entries| && Distinct(ids)
    ensures Upsert(Upsert(c, ids, entries), ids, entries) == Upsert(c, ids, entries)
  {
    var c1 := Upsert(c, ids, entries);
    var c2 := Upsert(c1, ids, entries);
    assert c2.Keys == c1.Keys;
    forall k | k in c2 ensures c2[k] == c1[k] {
      if k in ids {
        var i :| 0 <= i < |ids| && ids[i] == k;
      }
    }
  }

  /** Adding the same batch a second time leaves the collection as the first add left it. */
  lemma AddDocumentsIdempotent(c: Collection, embeddings: seq<Vector>, metadatas: seq<Metadata>)
    requires AddDocuments(c, embeddings, metadatas).Success?
    ensures AddDocuments(AddDocuments(c, embeddings, metadatas).value, embeddings, metadatas)
            == AddDocuments(c, embeddings, metadatas)
  {
    var b := MakeBatch(metadatas);
    var entries := seq(|metadatas|, i requires 0 <= i < |metadatas| => Entry(embeddings[i], b.documents[i], metadatas[i]));
    UpsertIdempotent(c, b.ids, entries);
  }

  lemma SeparatorAt(a: string, b: string)
    ensures (a + "_" + b)[|a|] == '_'
    ensures forall i :: 0 <= i < |a| ==> (a + "_" + b)[i] == a[i]
  {
  }

  /**
   * Ids of the form `a_b` are unambiguous when neither part contains an
   * underscore, as holds for uuid4 strings.
   */
  lemma {:induction false} RecordIdInjective(a: string, b: string, c: string, d: string)
    requires '_' !in a && '_' !in b && '_' !in c && '_' !in d
    requires a + "_" + b == c + "_" + d
    ensures a == c && b == d
  {
    var x := a + "_" + b;
    if |a| < |c| {
      SeparatorAt(a, b);
      SeparatorAt(c, d);
      assert false;
    } else if |c| < |a| {
      SeparatorAt(a, b);
      SeparatorAt(c, d);
      assert false;
    }
    assert a == x[..|a|];
    assert b == x[|a| + 1..];
  }

  /** One query's rows as the database returns them, position by position. */
  datatype QueryRows = QueryRows(ids: seq<string>, metadatas: seq<Option<Metadata>>,
                                 documents: seq<Option<Scalar>>, distances: seq<real>)

  datatype SearchResult = SearchResult(id: string, metadata: Option<Metadata>, content: Option<Scalar>, score: real)

  /**
   * `search`'s formatting loop: one result per returned id, fields taken from
   * the same position, score `1 - distance`. A column shorter than the ids
   * raises IndexError.
   */
  function FormatResults(rows: QueryRows): (r: Result<seq<SearchResult>>)
    ensures r.Success? <==> |rows.metadatas| >= |rows.ids| && |rows.documents| >= |rows.ids| && |rows.distances| >= |rows.ids|
    ensures r.Failure? ==> r.error == IndexError
    ensures r.Success? ==> |r.value| == |rows.ids|
    ensures r.Success? ==> forall i :: 0 <= i < |r.value| ==>
              r.value[i].id == rows.ids[i] && r.value[i].metadata == rows.metadatas[i]
              && r.value[i].content == rows.documents[i] && r.value[i].score + rows.distances[i] == 1.0
  {
    if |rows.metadatas| < |rows.ids| || |rows.documents| < |rows.ids| || |rows.distances| < |rows.ids| then
      Failure(IndexError)
    else
      Success(seq(|rows.ids|, i requires 0 <= i < |rows.ids| =>
        SearchResult(rows.ids[i], rows.metadatas[i], rows.documents[i], 1.0 - rows.distances[i])))
  }

  /** Rows ordered by increasing distance become results ordered by decreasing score. */
  lemma ScoresDescend(rows: QueryRows)
    requires FormatResults(rows).Success?
    requires forall i, j :: 0 <= i < j < |rows.ids| ==> rows.distances[i] <= rows.distances[j]
    ensures forall i, j :: 0 <= i < j < |FormatResults(rows).value| ==>
              FormatResults(rows).value[i].score >= FormatResults(rows).value[j].score
  {
  }

  /** A cosine distance in [0, 2] gives a score in [-1, 1], non-negative up to distance 1. */
  lemma ScoreRange(rows: QueryRows, i: int)
    requires FormatResults(rows).Success? && 0 <= i < |rows.ids|
    requires 0.0 <= rows.distances[i] <= 2.0
    ensures -1.0 <= FormatResults(rows).value[i].score <= 1.0
    ensures FormatResults(rows).value[i].score >= 0.0 <==> rows.distances[i] <= 1.0
  {
  }

  /** The rows name entries of collection `c` and carry what was stored for them. */
  predicate RowsFrom(c: Collection, rows: QueryRows) {
    && |rows.metadatas| == |rows.ids| && |rows.documents| == |rows.ids| && |rows.distances| == |rows.ids|
    && forall i :: 0 <= i < |rows.ids| ==>
         rows.ids[i] in c && rows.metadatas[i] == Some(c[rows.ids[i]].metadata)
         && rows.documents[i] == Some(c[rows.ids[i]].document)
  }

  /** Every entry's document is the chunk text its metadata carries, as `add_documents` stores it. */
  predicate DocumentsMatch(c: Collection) {
    forall k :: k in c ==> c[k].document == DocumentOf(c[k].metadata)
  }

  /** `add_documents` keeps each stored document equal to its metadata's content. */
  lemma AddDocumentsMatch(c: Collection, embeddings: seq<Vector>, metadatas: seq<Metadata>)
    requires DocumentsMatch(c) && AddDocuments(c, embeddings, metadatas).Success?
    ensures DocumentsMatch(AddDocuments(c, embeddings, metadatas).value)
  {
    var c' := AddDocuments(c, embeddings, metadatas).value;
    var ids := MakeBatch(metadatas).ids;
    forall k | k in c' ensures c'[k].document == DocumentOf(c'[k].metadata) {
      if k in ids {
        var i :| 0 <= i < |ids| && ids[i] == k;
        assert k == RecordId(metadatas[i]);
      }
    }
  }

  /**
   * Results drawn from a collection filled by `add_documents` carry each
   * chunk's stored document at top level, and it is the content recorded in
   * the result's own metadata.
   */
  lemma ResultsCarryStoredContent(c: Collection, rows: QueryRows)
    requires RowsFrom(c, rows) && DocumentsMatch(c)
    ensures FormatResults(rows).Success?
    ensures forall i :: 0 <= i < |rows.ids| ==>
              && FormatResults(rows).value[i].content == Some(c[rows.ids[i]].document)
              && FormatResults(rows).value[i].metadata.Some?
              && FormatResults(rows).value[i].content == Some(DocumentOf(FormatResults(rows).value[i].metadata.value))
  {
    forall i | 0 <= i < |rows.ids|
      ensures FormatResults(rows).value[i].content == Some(DocumentOf(FormatResults(rows).value[i].metadata.value))
    {
      assert rows.ids[i] in c;
    }
  }

}

=== FILE: cli.dfy ===
/** The command-line front end's reading of the optional tags prompt. */
module Cli {
  import opened Base
  import opened Text

  /**
   * `parse_tags`: None for blank input; otherwise the comma-separated
   * pieces, stripped, empty ones dropped, in input order, and None again
   * when no piece survives.
   */
  function ParseTags(input: string): (r: Option<seq<string>>)
    ensures r.None? <==> CleanSplit(input) == []
    ensures r.Some? ==> r.value == CleanSplit(input)
    ensures AllSpace(input) ==> r.None?
    ensures r.Some? ==> 1 <= |r.value| <= Count(input, ',') + 1
    ensures r.Some? ==> forall i :: 0 <= i < |r.value| ==>
              r.value[i] != "" && IsStripped(r.value[i]) && ',' !in r.value[i]
  {
    if |input| == 0 || Strip(input) == "" then
      BlankHasNoTags(input);
      None
    else
      var tags := CleanSplit(input);
      if |tags| == 0 then None else Some(tags)
  }

  /** Blank input has no pieces that survive stripping, so the early return agrees with the filter. */
  lemma BlankHasNoTags(input: string)
    requires |input| == 0 || Strip(input) == ""
    ensures CleanSplit(input) == []
    ensures AllSpace(input)
  {
    StripEmptyIffAllSpace(input);
    SplitAllSpace(input, ',');
    CleanPiecesEmpty(Split(input, ','));
  }

  /** Tags typed back as a comma-separated list read as the same tags. */
  lemma ParseTagsJoin(tags: seq<string>)
    requires |tags| >= 1
    requires forall i :: 0 <= i < |tags| ==> tags[i] != "" && IsStripped(tags[i]) && ',' !in tags[i]
    ensures ParseTags(Join(tags, ",")) == Some(tags)
  {
    CleanSplitJoin(tags);
  }

  /** Reading the tags, writing them back with commas and reading again gives the same answer. */
  lemma ParseTagsStable(input: string)
    requires ParseTags(input).Some?
    ensures ParseTags(Join(ParseTags(input).value, ",")) == ParseTags(input)
  {
    ParseTagsJoin(ParseTags(input).value);
  }

  /** Typical inputs: the empty string, a blank string and a single tag. */
  lemma ParseTagsExamples()
    ensures ParseTags("") == None
    ensures ParseTags("  ") == None
    ensures ParseTags("hr") == Some(["hr"])
  {
    assert AllSpace("  ");
    SplitNoSep("hr", ',');
    assert IsStripped("hr");
    CleanPiecesFixed(["hr"]);
  }
}

=== FILE: domain.dfy ===
/** The records the system passes between its services. */
module Domain {
  import opened Base

  /** An embedding vector; the embedding model itself is outside the model. */
  type Vector = seq<real>

  /** A parsed source file. */
  datatype Document = Document(id: string, name: string, content: string, path: string, tags: seq<string>)

  /** One text segment of a document, with the metadata stored beside its vector. */
  datatype Chunk = Chunk(documentId: string, content: string, chunkId: string, metadata: Metadata)

  /** A question; `tags` is carried but not used by retrieval. By default five passages are retrieved. */
  datatype Query = Query(text: string, tags: Option<seq<string>> := None, topK: int := 5)
}

=== FILE: ingestion.dfy ===
/**
 * The ingestion service: walks the supported files of a directory, skips
 * those its ledger already records, and for every other file parses,
 * splits, builds per-chunk metadata, embeds once, stores, and only then
 * records the file. A failure anywhere in that pipeline is caught and the
 * run moves on to the next file.
 *
 * Collaborators are the function-valued fields of `Env`: the parser, the
 * text splitter, the uuid4 supply, the embedder, the vector store's
 * `add_documents`, the iteration order of Python's set (which fixes the
 * order of the JSON list written to disk) and the outcome of that write.
 */
module Ingestion {
  import opened Base
  import opened Text
  import opened Domain

  /* ---------------------------------------------------------------------- */
  /* Supported files                                                        */
  /* ---------------------------------------------------------------------- */

  const SupportedExtensions: seq<string> := [".pdf", ".docx", ".txt"]

  /** `_is_supported_file`: the lower-cased suffix is a supported extension. */
  predicate IsSupportedFile(name: string) {
    Lower(Suffix(name)) in SupportedExtensions
  }

  lemma {:induction false} LastIndexLower(s: string)
    ensures LastIndex(Lower(s), '.') == LastIndex(s, '.')
    decreases |s|
  {
    if |s| > 0 {
      assert Lower(s)[..|s| - 1] == Lower(s[..|s| - 1]);
      LastIndexLower(s[..|s| - 1]);
    }
  }

  /** The check ignores letter case: a name and its lower-cased form agree. */
  lemma SupportIgnoresCase(name: string)
    ensures IsSupportedFile(name) <==> IsSupportedFile(Lower(name))
  {
    LastIndexLower(name);
    if HasSuffix(name) {
      var i := LastIndex(name, '.');
      assert Lower(name)[i..] == Lower(name[i..]);
      assert Lower(Lower(name[i..])) == Lower(name[i..]);
    }
  }

  lemma {:induction false} LastIndexAfter(stem: string, ext: string)
    requires |ext| >= 1 && ext[0] == '.' && '.' !in ext[1..]
    ensures LastIndex(stem + ext, '.') == |stem|
    decreases |ext|
  {
    if |ext| > 1 {
      var shorter := ext[..|ext| - 1];
      assert (stem + ext)[..|stem + ext| - 1] == stem + shorter;
      LastIndexAfter(stem, shorter);
    } else {
      assert (stem + ext)[|stem + ext| - 1] == '.';
    }
  }

  /** A non-empty stem followed by a supported extension, in any letter case, is supported. */
  lemma SupportedByExtension(stem: string, ext: string)
    requires |stem| > 0 && Lower(ext) in SupportedExtensions
    ensures IsSupportedFile(stem + ext)
    ensures Suffix(stem + ext) == ext
  {
    assert Lower(ext)[0] == '.';
    assert '.' !in ext[1..] by {
      forall k | 1 <= k < |ext| ensures ext[k] != '.' {
        assert Lower(ext)[k] == LowerChar(ext[k]);
      }
    }
    LastIndexAfter(stem, ext);
    assert (stem + ext)[|stem|..] == ext;
  }

  /** A name whose only dot comes first, as in a dot-file, has no suffix and is never supported. */
  lemma DotFileUnsupported(ext: string)
    requires |ext| >= 1 && ext[0] == '.' && '.' !in ext[1..]
    ensures !IsSupportedFile(ext)
  {
    LastIndexAfter("", ext);
    assert "" + ext == ext;
    assert Lower("") == "";
  }

  /** Typical names: an upper-case extension counts, a dot-file or another extension does not. */
  lemma SupportExamples()
    ensures IsSupportedFile("policy.PDF")
    ensures IsSupportedFile("notes.v2.Txt")
    ensures !IsSupportedFile(".txt")
    ensures !IsSupportedFile("readme.md")
  {
    UpperPdfSupported();
    DottedStemSupported();
    DotTxtUnsupported();
    MarkdownUnsupported();
  }

  lemma DotTxtUnsupported()
    ensures !IsSupportedFile(".txt")
  {
    assert '.' !in ".txt"[1..];
    DotFileUnsupported(".txt");
  }

  lemma UpperPdfSupported()
    ensures IsSupportedFile("policy.PDF")
  {
    assert Lower(".PDF") == ".pdf";
    SupportedByExtension("policy", ".PDF");
    assert "policy" + ".PDF" == "policy.PDF";
  }

  lemma DottedStemSupported()
    ensures IsSupportedFile("notes.v2.Txt")
  {
    assert Lower(".Txt") == ".txt";
    SupportedByExtension("notes.v2", ".Txt");
    assert "notes.v2" + ".Txt" == "notes.v2.Txt";
  }

  lemma MarkdownUnsupported()
    ensures !IsSupportedFile("readme.md")
  {
    LastIndexAfter("readme", ".md");
    assert "readme" + ".md" == "readme.md";
    assert Suffix("readme.md") == ".md";
    assert Lower(".md") == ".md";
  }


  /** One entry of the recursive directory walk. */
  datatype DirEntry = DirEntry(path: string, name: string, isFile: bool)

  /** What the directory argument names on disk. */
  datatype DirectoryState = Missing | NotADirectory | Tree(entries: seq<DirEntry>)

  /** `_get_supported_files`: the walk's regular files with a supported name, in walk order. */
  function SupportedFiles(entries: seq<DirEntry>): (files: seq<string>)
    ensures |files| <= |entries|
    ensures forall p :: p in files <==> exists k :: 0 <= k < |entries| && entries[k].path == p
                                                   && entries[k].isFile && IsSupportedFile(entries[k].name)
  {
    if |entries| == 0 then []
    else
      var e := entries[0];
      var rest := SupportedFiles(entries[1..]);
      assert forall k :: 1 <= k < |entries| ==> entries[k] == entries[1..][k - 1];
      (if e.isFile && IsSupportedFile(e.name) then [e.path] else []) + rest
  }

  /* ---------------------------------------------------------------------- */
  /* The ledger file                                                        */
  /* ---------------------------------------------------------------------- */

  /** The ledger file on disk, as far as the JSON reader and the set conversion see it. */
  datatype LedgerFile =
    | Absent
    | Unreadable               // exists but cannot be opened or read
    | Malformed                // not valid JSON (an empty or half-written file)
    | JsonArray(items: seq<string>)
    | JsonObject(keys: seq<string>)
    | JsonText(text: string)   // a JSON string: set() iterates its characters
    | JsonScalar               // a number, true, false or null: set() raises

  /**
   * `_load_processed_files`: an absent file or malformed JSON gives an empty
   * ledger; anything else `set()` can iterate gives its elements; other
   * errors are not caught and abort the service's construction.
   */
  function LoadLedger(f: LedgerFile): (r: Result<set<string>>)
    ensures r.Failure? <==> f.Unreadable? || f.JsonScalar?
    ensures f.Absent? || f.Malformed? ==> r == Success({})
    ensures f.JsonArray? ==> r.Success? && forall p :: p in r.value <==> p in f.items
    ensures f.JsonObject? ==> r.Success? && forall p :: p in r.value <==> p in f.keys
    ensures f.JsonText? ==> r.Success? && forall p :: p in r.value <==> |p| == 1 && p[0] in f.text
  {
    match f
    case Absent => Success({})
    case Malformed => Success({})
    case Unreadable => Failure(OSError)
    case JsonScalar => Failure(TypeError)
    case JsonArray(items) => Success(set p | p in items)
    case JsonObject(keys) => Success(set p | p in keys)
    case JsonText(text) =>
      assert forall p: string :: |p| == 1 ==> p == [p[0]];
      Success(set c | c in text :: [c])
  }

  /** The iteration order of Python's set: lists each element of the set exactly. */
  ghost predicate Enumerates(order: set<string> -> seq<string>) {
    forall s: set<string>, x: string :: x in order(s) <==> x in s
  }

  lemma EnumeratedSet(order: set<string> -> seq<string>, s: set<string>)
    ensures Enumerates(order) ==> (set p | p in order(s)) == s
  {
  }

  /** What became of writing the whole ledger to disk as a JSON list. */
  datatype WriteOutcome = Written | OpenFailed | Interrupted

  /** The ledger after `_mark_as_processed`, and what was written. */
  datatype Marked = Marked(ledger: set<string>, file: LedgerFile, written: seq<string>, outcome: WriteOutcome)

  /**
   * `_mark_as_processed`: add to the in-memory set first, then write the
   * whole set as a JSON list. A write that fails after opening leaves a
   * truncated, malformed file; one that cannot open leaves the old file.
   */
  function MarkAsProcessed(order: set<string> -> seq<string>, write: seq<string> -> WriteOutcome,
                           ledger: set<string>, file: LedgerFile, path: string): (r: Marked)
    ensures r.ledger == ledger + {path} && path in r.ledger
    ensures r.written == order(r.ledger) && r.outcome == write(r.written)
    ensures r.outcome == Written ==> r.file == JsonArray(r.written)
    ensures r.outcome == Written ==> Enumerates(order) ==> LoadLedger(r.file) == Success(r.ledger)
    ensures r.outcome == OpenFailed ==> r.file == file
    ensures r.outcome == Interrupted ==> LoadLedger(r.file) == Success({})
  {
    var added := ledger + {path};
    var items := order(added);
    EnumeratedSet(order, added);
    match write(items)
    case Written => Marked(added, JsonArray(items), items, Written)
    case OpenFailed => Marked(added, file, items, OpenFailed)
    case Interrupted => Marked(added, Malformed, items, Interrupted)
  }

  /** Recording is a set add: recording a recorded path leaves the ledger as it was. */
  lemma MarkIsSetAdd(order: set<string> -> seq<string>, write: seq<string> -> WriteOutcome,
                     ledger: set<string>, file: LedgerFile, path: string)
    ensures path in ledger ==> MarkAsProcessed(order, write, ledger, file, path).ledger == ledger
    ensures var once := MarkAsProcessed(order, write, ledger, file, path);
            MarkAsProcessed(order, write, once.ledger, once.file, path) == once
  {
  }

  /* ---------------------------------------------------------------------- */
  /* Per-chunk metadata                                                     */
  /* ---------------------------------------------------------------------- */

  lemma {:induction false} LookupAt(m: Metadata, i: int)
    requires DistinctKeys(m) && 0 <= i < |m|
    ensures Lookup(m, m[i].0) == Some(m[i].1)
    decreases i
  {
    if i > 0 {
      assert DistinctKeys(m[1..]);
      LookupAt(m[1..], i - 1);
    }
  }

  /** The metadata dictionary the service builds for chunk `i`. */
  function ChunkMetadata(doc: Document, i: nat, chunkId: string, text: string): (m: Metadata)
    ensures DescribesChunk(m, doc, i, chunkId, text)
  {
    var m := [("document_id", Str(doc.id)), ("chunk_id", Str(chunkId)), ("tags", Str(Join(doc.tags, ","))),
              ("filename", Str(doc.name)), ("path", Str(doc.path)), ("chunk_index", Int(i)), ("content", Str(text))];
    assert DistinctKeys(m);
    LookupAt(m, 0); LookupAt(m, 1); LookupAt(m, 2); LookupAt(m, 3);
    LookupAt(m, 4); LookupAt(m, 5); LookupAt(m, 6);
    m
  }

  /** What a dictionary lookup on chunk `i`'s metadata gives. */
  predicate DescribesChunk(m: Metadata, doc: Document, i: nat, chunkId: string, text: string) {
    && DistinctKeys(m)
    && Lookup(m, "document_id") == Some(Str(doc.id))
    && Lookup(m, "chunk_id") == Some(Str(chunkId))
    && Lookup(m, "tags") == Some(Str(Join(doc.tags, ",")))
    && Lookup(m, "filename") == Some(Str(doc.name))
    && Lookup(m, "path") == Some(Str(doc.path))
    && Lookup(m, "chunk_index") == Some(Int(i))
    && Lookup(m, "content") == Some(Str(text))
  }

  /** Metadata for a document's chunks: one per text, in text order, with the given chunk ids. */
  predicate AlignedMetadata(metas: seq<Metadata>, doc: Document, texts: seq<string>, chunkIds: seq<string>) {
    && |metas| == |texts| == |chunkIds|
    && forall i :: 0 <= i < |metas| ==> DescribesChunk(metas[i], doc, i, chunkIds[i], texts[i])
  }

  /** The chunk objects built for the texts, one per text and numbered by position. */
  function BuildChunks(doc: Document, texts: seq<string>, chunkIds: seq<string>): (chunks: seq<Chunk>)
    requires |chunkIds| == |texts|
    ensures |chunks| == |texts|
    ensures forall i :: 0 <= i < |chunks| ==>
              chunks[i].documentId == doc.id && chunks[i].chunkId == chunkIds[i] && chunks[i].content == texts[i]
    ensures AlignedMetadata(Metadatas(chunks), doc, texts, chunkIds)
    ensures ChunkTexts(chunks) == texts
  {
    var chunks := seq(|texts|, i requires 0 <= i < |texts| =>
      Chunk(doc.id, texts[i], chunkIds[i], ChunkMetadata(doc, i, chunkIds[i], texts[i])));
    assert ChunkTexts(chunks) == texts;
    chunks
  }

  function Metadatas(chunks: seq<Chunk>): seq<Metadata> {
    seq(|chunks|, i requires 0 <= i < |chunks| => chunks[i].metadata)
  }

  /** The chunks' texts, in chunk order: what the embedder is given. */
  function ChunkTexts(chunks: seq<Chunk>): seq<string> {
    seq(|chunks|, i requires 0 <= i < |chunks| => chunks[i].content)
  }

  /** The uuid4 supply never repeats. */
  ghost predicate Injective(uuid: nat -> string) {
    forall a: nat, b: nat :: uuid(a) == uuid(b) ==> a == b
  }

  /** The next `n` fresh ids, starting at position `start` of the supply. */
  function FreshIds(uuid: nat -> string, start: nat, n: nat): (ids: seq<string>)
    ensures |ids| == n
    ensures forall i :: 0 <= i < n ==> ids[i] == uuid(start + i)
    ensures Injective(uuid) ==> Distinct(ids)
  {
    seq(n, i requires 0 <= i < n => uuid(start + i))
  }

  /* ---------------------------------------------------------------------- */
  /* One file                                                               */
  /* ---------------------------------------------------------------------- */

  datatype Env<!S> = Env(
    parse: string -> Result<Document>,
    split: string -> seq<string>,
    uuid: nat -> string,
    embed: seq<string> -> Result<seq<Vector>>,
    add: (S, seq<Vector>, seq<Metadata>) -> Result<S>,
    order: set<string> -> seq<string>,
    write: seq<string> -> WriteOutcome)

  /** The pipeline stage at which a file's processing raised. */
  datatype Stage = Parsing | Embedding | Storing | Recording

  /** What the run reports for one file. */
  datatype Event = Skipped(path: string) | Ingested(path: string) | Failed(path: string, stage: Stage, error: Error) {
    /** The store call returned, so the path entered the in-memory ledger. */
    predicate Stored() {
      Ingested? || (Failed? && stage == Recording)
    }
    /** The file raised before the store call returned. */
    predicate FailedEarly() {
      Failed? && stage != Recording
    }
  }

  /** A call into a collaborator, in the order the service makes them. */
  datatype Call =
    | ParseCall(path: string)
    | EmbedCall(texts: seq<string>)
    | AddCall(embeddings: seq<Vector>, metadatas: seq<Metadata>)
    | WriteCall(items: seq<string>)

  datatype State<S> = State(ledger: set<string>, file: LedgerFile, store: S, nextUuid: nat,
                            log: seq<Event>, calls: seq<Call>)

  /**
   * The service's constructor: load the ledger; a load error aborts
   * construction. `next` is the position of the uuid4 supply the new
   * service draws from, so a later process keeps drawing fresh ids.
   */
  function Start<S>(file: LedgerFile, store: S, next: nat): (r: Result<State<S>>)
    ensures r.Success? <==> LoadLedger(file).Success?
    ensures r.Success? ==> r.value.ledger == LoadLedger(file).value && r.value.file == file
                           && r.value.log == [] && r.value.calls == [] && r.value.store == store
                           && r.value.nextUuid == next
  {
    match LoadLedger(file)
    case Failure(e) => Failure(e)
    case Success(ledger) => Success(State(ledger, file, store, next, [], []))
  }

  /** The body of the run loop for one file path, exceptions caught. */
  function Step<S>(env: Env<S>, st: State<S>, path: string): State<S> {
    if path in st.ledger then st.(log := st.log + [Skipped(path)])
    else
      var calls := st.calls + [ParseCall(path)];
      match env.parse(path)
      case Failure(e) => st.(log := st.log + [Failed(path, Parsing, e)], calls := calls)
      case Success(doc) =>
        var texts := env.split(doc.content);
        var chunkIds := FreshIds(env.uuid, st.nextUuid, |texts|);
        var chunks := BuildChunks(doc, texts, chunkIds);
        var metas := Metadatas(chunks);
        var next := st.nextUuid + |texts|;
        var calls := calls + [EmbedCall(ChunkTexts(chunks))];
        match env.embed(ChunkTexts(chunks))
        case Failure(e) => st.(nextUuid := next, log := st.log + [Failed(path, Embedding, e)], calls := calls)
        case Success(vectors) =>
          var calls := calls + [AddCall(vectors, metas)];
          match env.add(st.store, vectors, metas)
          case Failure(e) => st.(nextUuid := next, log := st.log + [Failed(path, Storing, e)], calls := calls)
          case Success(store) =>
            var m := MarkAsProcessed(env.order, env.write, st.ledger, st.file, path);
            var calls := calls + [WriteCall(m.written)];
            var event := if m.outcome == Written then Ingested(path) else Failed(path, Recording, OSError);
            State(m.ledger, m.file, store, next, st.log + [event], calls)
  }

  /** The event `Step` appended for `path`. */
  function LastEvent<S>(env: Env<S>, st: State<S>, path: string): Event {
    var st' := Step(env, st, path);
    if |st'.log| > 0 then st'.log[|st'.log| - 1] else Skipped(path)
  }

  /** A path in the ledger is skipped and no collaborator is called for it. */
  lemma StepSkips<S>(env: Env<S>, st: State<S>, path: string)
    requires path in st.ledger
    ensures Step(env, st, path) == st.(log := st.log + [Skipped(path)])
  {
  }

  /**
   * The outline every step keeps: one event for the path, skipped exactly
   * when the path is in the ledger; the path joins the ledger exactly when
   * the store call returned; calls and log only grow; nothing but the log
   * changes for a skipped path; a successful write persists the ledger.
   */
  ghost predicate StepOutline<S>(env: Env<S>, st: State<S>, path: string, st': State<S>, e: Event) {
    && st'.log == st.log + [e]
    && e.path == path
    && (e.Skipped? <==> path in st.ledger)
    && st'.ledger == st.ledger + (if e.Stored() then {path} else {})
    && st.calls <= st'.calls && st.nextUuid <= st'.nextUuid
    && (!e.Stored() ==> st'.store == st.store && st'.file == st.file)
    && (e.Skipped? ==> st'.calls == st.calls)
    && ((e.Ingested? && Enumerates(env.order)) ==> LoadLedger(st'.file) == Success(st'.ledger))
  }

  lemma StepShape<S>(env: Env<S>, st: State<S>, path: string)
    ensures StepOutline(env, st, path, Step(env, st, path), LastEvent(env, st, path))
  {
  }

  /**
   * The collaborator calls made for a path not in the ledger: parse first;
   * on success embed once with the chunk texts in order; then the store
   * with those vectors and aligned metadata; and only when the store
   * returned, the ledger write.
   */
  lemma StepCalls<S>(env: Env<S>, st: State<S>, path: string)
    requires path !in st.ledger
    ensures var st' := Step(env, st, path);
            var made := st'.calls[|st.calls|..];
            var e := LastEvent(env, st, path);
            && 1 <= |made| <= 4 && made[0] == ParseCall(path)
            && (env.parse(path).Failure? <==> |made| == 1)
            && (env.parse(path).Failure? ==> e == Failed(path, Parsing, env.parse(path).error))
            && (forall k :: 0 <= k < |made| && made[k].EmbedCall? ==> k == 1)
            && (forall k :: 0 <= k < |made| && made[k].AddCall? ==> k == 2)
            && (|made| >= 2 ==> made[1] == EmbedCall(env.split(env.parse(path).value.content)))
            && (|made| >= 3 <==> |made| >= 2 && env.embed(made[1].texts).Success?)
            && (|made| >= 3 ==> (made[2].AddCall? && made[2].embeddings == env.embed(made[1].texts).value
                                 && AlignedMetadata(made[2].metadatas, env.parse(path).value, made[1].texts,
                                                    FreshIds(env.uuid, st.nextUuid, |made[1].texts|))))
            && (|made| == 2 ==> e == Failed(path, Embedding, env.embed(made[1].texts).error))
            && (|made| == 4 <==> e.Stored())
            && (|made| >= 3 && env.add(st.store, made[2].embeddings, made[2].metadatas).Success? ==> |made| == 4)
            && (|made| == 3 ==> e == Failed(path, Storing, env.add(st.store, made[2].embeddings, made[2].metadatas).error))
            && (|made| == 4 ==> (made[2].AddCall? && env.add(st.store, made[2].embeddings, made[2].metadatas).Success?
                                 && st'.store == env.add(st.store, made[2].embeddings, made[2].metadatas).value
                                 && made[3] == WriteCall(env.order(st'.ledger))))
            && (|made| == 4 ==> (e.Ingested? <==> env.write(made[3].items) == Written))
            && (|made| == 4 && !e.Ingested? ==> e == Failed(path, Recording, OSError))
            && (e.Ingested? ==> Enumerates(env.order) ==> LoadLedger(st'.file) == Success(st'.ledger))
  {
    var st' := Step(env, st, path);
    var made := st'.calls[|st.calls|..];
    match env.parse(path)
    case Failure(_) =>
      assert made == [ParseCall(path)];
    case Success(doc) =>
      var texts := env.split(doc.content);
      var chunks := BuildChunks(doc, texts, FreshIds(env.uuid, st.nextUuid, |texts|));
      assert made[..2] == [ParseCall(path), EmbedCall(ChunkTexts(chunks))];
  }

  /** A document that splits into no chunks is still stored and recorded. */
  lemma EmptyDocumentRecorded<S>(env: Env<S>, st: State<S>, path: string)
    requires path !in st.ledger
    requires env.parse(path).Success? && env.split(env.parse(path).value.content) == []
    requires env.embed([]).Success? && env.add(st.store, env.embed([]).value, []).Success?
    ensures path in Step(env, st, path).ledger
    ensures Step(env, st, path).calls[|st.calls| + 1] == EmbedCall([])
  {
  }

  /* ---------------------------------------------------------------------- */
  /* The run                                                                */
  /* ---------------------------------------------------------------------- */

  /** Paths whose store call returned, in the given events. */
  function StoredPaths(events: seq<Event>): set<string> {
    if |events| == 0 then {}
    else StoredPaths(events[..|events| - 1])
         + (if events[|events| - 1].Stored() then {events[|events| - 1].path} else {})
  }

  /** The latest event whose store call returned, if any. */
  function LastStored(events: seq<Event>): Option<Event> {
    if |events| == 0 then None
    else if events[|events| - 1].Stored() then Some(events[|events| - 1])
    else LastStored(events[..|events| - 1])
  }

  /** The events a run appended after the initial state's log. */
  function NewEvents<S>(st0: State<S>, st: State<S>): seq<Event>
    requires |st0.log| <= |st.log|
  {
    st.log[|st0.log|..]
  }

  /** One event per processed path, in order; skipped exactly when the path was in the ledger by then. */
  ghost predicate EventsFollow<S>(st0: State<S>, done: seq<string>, st: State<S>) {
    && |st0.log| <= |st.log| && st.log[..|st0.log|] == st0.log
    && |NewEvents(st0, st)| == |done|
    && (forall k :: 0 <= k < |done| ==> NewEvents(st0, st)[k].path == done[k])
    && (forall k :: 0 <= k < |done| ==>
          (NewEvents(st0, st)[k].Skipped? <==> done[k] in st0.ledger + StoredPaths(NewEvents(st0, st)[..k])))
  }

  /** The ledger is the initial one plus the stored paths; calls and ids only move forward. */
  ghost predicate LedgerGrows<S>(st0: State<S>, st: State<S>)
    requires |st0.log| <= |st.log|
  {
    && st.ledger == st0.ledger + StoredPaths(NewEvents(st0, st))
    && st0.calls <= st.calls && st0.nextUuid <= st.nextUuid
  }

  /** A run that skipped every file called nothing and changed nothing but the log. */
  ghost predicate QuietWhenSkipped<S>(st0: State<S>, st: State<S>)
    requires |st0.log| <= |st.log|
  {
    (forall k :: 0 <= k < |NewEvents(st0, st)| ==> NewEvents(st0, st)[k].Skipped?) ==>
      st.calls == st0.calls && st.store == st0.store && st.file == st0.file
  }

  /** The ledger file is untouched until a store call returns, and in sync after a successful write. */
  ghost predicate FileFollows<S>(env: Env<S>, st0: State<S>, st: State<S>)
    requires |st0.log| <= |st.log|
  {
    && (LastStored(NewEvents(st0, st)) == None ==> st.file == st0.file)
    && ((Enumerates(env.order) && LastStored(NewEvents(st0, st)).Some?
         && LastStored(NewEvents(st0, st)).value.Ingested?)
        ==> LoadLedger(st.file) == Success(st.ledger))
  }

  /** What processing `done` in order from `st0` has led to in `st`. */
  ghost predicate Progress<S>(env: Env<S>, st0: State<S>, done: seq<string>, st: State<S>) {
    && EventsFollow(st0, done, st)
    && LedgerGrows(st0, st)
    && QuietWhenSkipped(st0, st)
    && FileFollows(env, st0, st)
  }

  lemma NewEventsStep<S>(st0: State<S>, st: State<S>, st': State<S>, e: Event)
    requires |st0.log| <= |st.log| && st'.log == st.log + [e]
    ensures NewEvents(st0, st') == NewEvents(st0, st) + [e]
    ensures NewEvents(st0, st')[..|NewEvents(st0, st)|] == NewEvents(st0, st)
    ensures forall k :: 0 <= k <= |NewEvents(st0, st)| ==> NewEvents(st0, st')[..k] == NewEvents(st0, st)[..k]
  {
    assert NewEvents(st0, st') == NewEvents(st0, st) + [e];
  }

  lemma EventsFollowStep<S>(env: Env<S>, st0: State<S>, done: seq<string>, st: State<S>, path: string,
                            done': seq<string>, st': State<S>, e: Event)
    requires EventsFollow(st0, done, st) && LedgerGrows(st0, st)
    requires StepOutline(env, st, path, st', e)
    requires done' == done + [path]
    ensures EventsFollow(st0, done', st')
  {
    NewEventsStep(st0, st, st', e);
    assert st'.log[..|st0.log|] == st.log[..|st0.log|];
  }

  lemma LedgerGrowsStep<S>(env: Env<S>, st0: State<S>, st: State<S>, path: string, st': State<S>, e: Event)
    requires |st0.log| <= |st.log| && LedgerGrows(st0, st)
    requires StepOutline(env, st, path, st', e)
    ensures LedgerGrows(st0, st')
  {
    NewEventsStep(st0, st, st', e);
  }

  lemma QuietWhenSkippedStep<S>(env: Env<S>, st0: State<S>, st: State<S>, path: string, st': State<S>, e: Event)
    requires |st0.log| <= |st.log| && QuietWhenSkipped(st0, st)
    requires StepOutline(env, st, path, st', e)
    ensures QuietWhenSkipped(st0, st')
  {
    NewEventsStep(st0, st, st', e);
    var events' := NewEvents(st0, st');
    if forall k :: 0 <= k < |events'| ==> events'[k].Skipped? {
      assert e == events'[|events'| - 1];
      forall k | 0 <= k < |NewEvents(st0, st)| ensures NewEvents(st0, st)[k].Skipped? {
        assert NewEvents(st0, st)[k] == events'[k];
      }
    }
  }

  lemma FileFollowsStep<S>(env: Env<S>, st0: State<S>, st: State<S>, path: string, st': State<S>, e: Event)
    requires |st0.log| <= |st.log| && FileFollows(env, st0, st)
    requires StepOutline(env, st, path, st', e)
    ensures FileFollows(env, st0, st')
  {
    NewEventsStep(st0, st, st', e);
    var events := NewEvents(st0, st);
    var events' := NewEvents(st0, st');
    assert events'[..|events'| - 1] == events;
    if e.Stored() {
      assert LastStored(events') == Some(e);
    } else {
      assert LastStored(events') == LastStored(events);
      assert st'.file == st.file && st'.ledger == st.ledger;
    }
  }

  lemma ProgressStart<S>(env: Env<S>, st0: State<S>)
    ensures Progress(env, st0, [], st0)
  {
    assert NewEvents(st0, st0) == [];
  }

  lemma ProgressStep<S>(env: Env<S>, st0: State<S>, done: seq<string>, st: State<S>, path: string,
                        done': seq<string>)
    requires Progress(env, st0, done, st)
    requires done' == done + [path]
    ensures Progress(env, st0, done', Step(env, st, path))
  {
    var st' := Step(env, st, path);
    var e := LastEvent(env, st, path);
    StepShape(env, st, path);
    EventsFollowStep(env, st0, done, st, path, done', st', e);
    LedgerGrowsStep(env, st0, st, path, st', e);
    QuietWhenSkippedStep(env, st0, st, path, st', e);
    FileFollowsStep(env, st0, st, path, st', e);
  }


  /** The state after processing `files` one after another from `st`. */
  function StepAll<S>(env: Env<S>, st: State<S>, files: seq<string>): State<S>
    decreases |files|
  {
    if |files| == 0 then st
    else Step(env, StepAll(env, st, files[..|files| - 1]), files[|files| - 1])
  }

  /** Processing any list of files keeps the run's invariant. */
  lemma {:induction false} StepAllProgress<S>(env: Env<S>, st0: State<S>, files: seq<string>)
    ensures Progress(env, st0, files, StepAll(env, st0, files))
    decreases |files|
  {
    if |files| == 0 {
      ProgressStart(env, st0);
    } else {
      var init := files[..|files| - 1];
      StepAllProgress(env, st0, init);
      SplitLast(files);
      ProgressStep(env, st0, init, StepAll(env, st0, init), files[|files| - 1], files);
    }
  }

  /** `run`: reject a missing directory, then process every supported file in walk order. */
  method Run<S>(env: Env<S>, st0: State<S>, directoryPath: string, dir: DirectoryState) returns (r: Result<State<S>>)
    ensures !dir.Tree? ==> r == Failure(ValueError("Directory " + directoryPath + " does not exist or is not a directory"))
    ensures dir.Tree? ==> r.Success? && r.value == StepAll(env, st0, SupportedFiles(dir.entries))
    ensures dir.Tree? ==> r.Success? && Progress(env, st0, SupportedFiles(dir.entries), r.value)
  {
    if !dir.Tree? {
      return Failure(ValueError("Directory " + directoryPath + " does not exist or is not a directory"));
    }
    var files := SupportedFiles(dir.entries);
    var st := st0;
    var i := 0;
    while i < |files|
      invariant 0 <= i <= |files|
      invariant st == StepAll(env, st0, files[..i])
    {
      assert files[..i + 1][..i] == files[..i];
      st := Step(env, st, files[i]);
      i := i + 1;
    }
    assert files[..i] == files;
    StepAllProgress(env, st0, files);
    r := Success(st);
  }

  /* ---------------------------------------------------------------------- */
  /* What a run leaves in the ledger                                        */
  /* ---------------------------------------------------------------------- */

  lemma {:induction false} StoredPathsMember(events: seq<Event>, p: string)
    ensures p in StoredPaths(events) <==> exists k :: 0 <= k < |events| && events[k].Stored() && events[k].path == p
    decreases |events|
  {
    if |events| > 0 {
      var init := events[..|events| - 1];
      StoredPathsMember(init, p);
      assert forall k :: 0 <= k < |init| ==> init[k] == events[k];
      if p in StoredPaths(events) && p !in StoredPaths(init) {
        assert events[|events| - 1].Stored() && events[|events| - 1].path == p;
      }
    }
  }

  /**
   * A path the run did not know before is recorded at the end exactly when
   * its store call returned; the walk lists each file once.
   */
  lemma RecordedIffStored<S>(env: Env<S>, st0: State<S>, done: seq<string>, st: State<S>, k: int)
    requires Progress(env, st0, done, st) && Distinct(done)
    requires 0 <= k < |done| && done[k] !in st0.ledger
    ensures done[k] in st.ledger <==> NewEvents(st0, st)[k].Stored()
  {
    var events := NewEvents(st0, st);
    StoredPathsMember(events, done[k]);
    if done[k] in StoredPaths(events) {
      var j :| 0 <= j < |events| && events[j].Stored() && events[j].path == done[k];
      assert done[j] == done[k];
    }
  }

  /** A file that failed before its store call returned stays out of the ledger, so the next run retries it. */
  lemma FailedEarlyNotRecorded<S>(env: Env<S>, st0: State<S>, done: seq<string>, st: State<S>, k: int)
    requires Progress(env, st0, done, st) && Distinct(done)
    requires 0 <= k < |done| && NewEvents(st0, st)[k].FailedEarly()
    ensures done[k] !in st.ledger
  {
    var events := NewEvents(st0, st);
    assert !events[k].Skipped?;
    assert done[k] !in st0.ledger;
    RecordedIffStored(env, st0, done, st, k);
  }

  /** No file of the run failed before its store call returned. */
  predicate NoEarlyFailure(events: seq<Event>) {
    forall k :: 0 <= k < |events| ==> !events[k].FailedEarly()
  }

  /** After a run with no early failure, every processed file is in the ledger. */
  lemma AllRecorded<S>(env: Env<S>, st0: State<S>, done: seq<string>, st: State<S>)
    requires Progress(env, st0, done, st) && NoEarlyFailure(NewEvents(st0, st))
    ensures forall p :: p in done ==> p in st.ledger
  {
    var events := NewEvents(st0, st);
    forall p | p in done ensures p in st.ledger {
      var k :| 0 <= k < |done| && done[k] == p;
      StoredPathsMember(events, p);
      if events[k].Skipped? {
        StoredPathsMember(events[..k], p);
        if p in StoredPaths(events[..k]) {
          var j :| 0 <= j < k && events[..k][j].Stored() && events[..k][j].path == p;
          assert events[j] == events[..k][j];
        }
      }
    }
  }

  /**
   * A run over files that are all in the ledger skips each one, calls no
   * collaborator, and leaves ledger, store and ledger file as they were.
   */
  lemma RerunSkipsAll<S>(env: Env<S>, st1: State<S>, done: seq<string>, st2: State<S>)
    requires Progress(env, st1, done, st2)
    requires forall p :: p in done ==> p in st1.ledger
    ensures forall k :: 0 <= k < |done| ==> NewEvents(st1, st2)[k] == Skipped(done[k])
    ensures st2.calls == st1.calls && st2.store == st1.store && st2.file == st1.file
    ensures st2.ledger == st1.ledger
  {
    var events := NewEvents(st1, st2);
    forall k | 0 <= k < |done| ensures events[k] == Skipped(done[k]) {
      assert done[k] in st1.ledger;
    }
    forall p ensures p !in StoredPaths(events) {
      StoredPathsMember(events, p);
    }
  }

  /** With no stored event, no path was stored. */
  lemma {:induction false} NothingStored(events: seq<Event>)
    requires LastStored(events) == None
    ensures StoredPaths(events) == {}
    decreases |events|
  {
    if |events| > 0 {
      NothingStored(events[..|events| - 1]);
    }
  }

  /**
   * The ledger file a run leaves reloads to the run's ledger, when the run
   * started from a loaded file and its last recording was written in full.
   */
  lemma ReloadGivesLedger<S>(env: Env<S>, st0: State<S>, done: seq<string>, st: State<S>)
    requires Progress(env, st0, done, st) && Enumerates(env.order)
    requires LoadLedger(st0.file) == Success(st0.ledger)
    requires LastStored(NewEvents(st0, st)).Some? ==> LastStored(NewEvents(st0, st)).value.Ingested?
    ensures LoadLedger(st.file) == Success(st.ledger)
  {
    var events := NewEvents(st0, st);
    assert FileFollows(env, st0, st) && LedgerGrows(st0, st);
    if LastStored(events).None? {
      NothingStored(events);
      assert st.file == st0.file && st.ledger == st0.ledger;
    }
  }

  /**
   * Running the ingestion twice over the same directory, each time with a
   * freshly constructed service that reloads the ledger file the previous
   * run left, over the same store. The second service draws uuid4 values
   * where the first stopped, so no id is drawn twice. When the first run had no early failure
   * and its last recording was written in full, the second run skips every
   * file and calls no collaborator.
   */
  method RunTwice<S>(env: Env<S>, file: LedgerFile, store: S, next: nat, directoryPath: string, dir: DirectoryState)
    returns (first: Result<State<S>>, second: Result<State<S>>)
    ensures first.Success? <==> LoadLedger(file).Success? && dir.Tree?
    ensures second.Success? ==> first.Success?
    ensures first.Success? ==> next <= first.value.nextUuid
    ensures second.Success? ==> first.value.nextUuid <= second.value.nextUuid
    ensures first.Success? && Enumerates(env.order) && NoEarlyFailure(first.value.log)
            && (LastStored(first.value.log).Some? ==> LastStored(first.value.log).value.Ingested?) ==>
              && second.Success?
              && |second.value.log| == |SupportedFiles(dir.entries)|
              && (forall k :: 0 <= k < |second.value.log| ==> second.value.log[k] == Skipped(SupportedFiles(dir.entries)[k]))
              && second.value.calls == [] && second.value.store == first.value.store
              && second.value.ledger == first.value.ledger && second.value.file == first.value.file
  {
    var st0 := Start(file, store, next);
    if st0.Failure? {
      first := Failure(st0.error);
      second := Failure(st0.error);
      return;
    }
    first := Run(env, st0.value, directoryPath, dir);
    if first.Failure? {
      second := Run(env, st0.value, directoryPath, dir);
      return;
    }
    var files := SupportedFiles(dir.entries);
    var events := NewEvents(st0.value, first.value);
    assert events == first.value.log;
    var quiet := Enumerates(env.order) && NoEarlyFailure(events)
                 && (LastStored(events).Some? ==> LastStored(events).value.Ingested?);
    if quiet {
      ReloadGivesLedger(env, st0.value, files, first.value);
    }
    var st1 := Start(first.value.file, first.value.store, first.value.nextUuid);
    if st1.Failure? {
      second := Failure(st1.error);
      return;
    }
    second := Run(env, st1.value, directoryPath, dir);
    if quiet {
      AllRecorded(env, st0.value, files, first.value);
      RerunSkipsAll(env, st1.value, files, second.value);
      assert NewEvents(st1.value, second.value) == second.value.log;
    }
  }

  /**
   * Running the same service instance twice: when the first run had no
   * early failure, the second one only skips.
   */
  method RunSameServiceTwice<S>(env: Env<S>, st0: State<S>, directoryPath: string, dir: DirectoryState)
    returns (first: Result<State<S>>, second: Result<State<S>>)
    ensures first.Success? <==> dir.Tree?
    ensures second.Success? <==> dir.Tree?
    ensures first.Success? && second.Success? && |st0.log| <= |first.value.log|
            && NoEarlyFailure(NewEvents(st0, first.value)) ==>
              && |first.value.log| <= |second.value.log|
              && |NewEvents(first.value, second.value)| == |SupportedFiles(dir.entries)|
              && (forall k :: 0 <= k < |SupportedFiles(dir.entries)| ==>
                    NewEvents(first.value, second.value)[k] == Skipped(SupportedFiles(dir.entries)[k]))
              && second.value.calls == first.value.calls && second.value.store == first.value.store
              && second.value.ledger == first.value.ledger && second.value.file == first.value.file
  {
    first := Run(env, st0, directoryPath, dir);
    if first.Failure? {
      second := Run(env, st0, directoryPath, dir);
      return;
    }
    second := Run(env, first.value, directoryPath, dir);
    if NoEarlyFailure(NewEvents(st0, first.value)) {
      AllRecorded(env, st0, SupportedFiles(dir.entries), first.value);
      RerunSkipsAll(env, first.value, SupportedFiles(dir.entries), second.value);
    }
  }
}

=== FILE: inspector.dfy ===
/**
 * The vector-store inspector's pure helpers: text truncation for display,
 * metadata formatting, and the counting behind the collection statistics.
 * The statistics' average, their top-three ordering and the display tables
 * are outside the model.
 */
module Inspector {
  import opened Base
  import opened Text
  import opened Domain
  import Ingestion

  /* ---------------------------------------------------------------------- */
  /* truncate_text                                                          */
  /* ---------------------------------------------------------------------- */

  /** A Python prefix slice of `s` up to `n`: a negative bound counts from the end, and bounds are clamped. */
  function PrefixSlice(s: string, n: int): (r: string)
    ensures |r| <= |s| && r == s[..|r|]
    ensures n >= 0 ==> |r| == if n <= |s| then n else |s|
    ensures n < 0 ==> |r| == if |s| + n > 0 then |s| + n else 0
  {
    if n >= 0 then (if n <= |s| then s[..n] else s)
    else if |s| + n > 0 then s[..|s| + n] else ""
  }

  /** `truncate_text`: empty for no text; the text itself when short enough; else a prefix and an ellipsis. */
  function TruncateText(text: Option<string>, maxLength: int): (r: string)
    ensures r == "" <==> text.None? || text.value == ""
    ensures text.Some? && |text.value| <= maxLength ==> r == text.value
    ensures text.Some? && text.value != "" && |text.value| > maxLength ==>
              |r| >= 3 && |r| - 3 <= |text.value| && r[|r| - 3..] == "..." && r[..|r| - 3] == text.value[..|r| - 3]
    ensures text.Some? && text.value != "" && |text.value| > maxLength && maxLength >= 0 ==> |r| == maxLength + 3
    ensures maxLength >= 0 ==> |r| <= maxLength + 3
  {
    if text.None? || text.value == "" then ""
    else if |text.value| <= maxLength then text.value
    else
      var p := PrefixSlice(text.value, maxLength);
      assert (p + "...")[..|p|] == p;
      p + "..."
  }

  /** Truncating a truncated text again changes nothing, for any non-negative length. */
  lemma TruncateIdempotent(text: Option<string>, maxLength: int)
    requires maxLength >= 0
    ensures TruncateText(Some(TruncateText(text, maxLength)), maxLength) == TruncateText(text, maxLength)
  {
    var once := TruncateText(text, maxLength);
    if text.Some? && text.value != "" && |text.value| > maxLength {
      assert PrefixSlice(once, maxLength) == PrefixSlice(text.value, maxLength);
    }
  }

  /* ---------------------------------------------------------------------- */
  /* format_metadata                                                        */
  /* ---------------------------------------------------------------------- */

  /** The `"key: value"` entries for the keys other than "content", in dictionary order. */
  function Shown(m: Metadata): (r: seq<string>)
    ensures |r| <= |m|
    decreases |m|
  {
    if |m| == 0 then []
    else
      var last := m[|m| - 1];
      Shown(m[..|m| - 1]) + (if last.0 == "content" then [] else [last.0 + ": " + Show(last.1)])
  }

  /** `format_metadata`: "No metadata" for none or an empty mapping, else the shown entries joined by ", ". */
  function FormatMetadata(metadata: Option<Metadata>): (r: string)
    ensures metadata.None? || metadata.value == [] ==> r == "No metadata"
    ensures metadata.Some? && metadata.value != [] ==> r == Join(Shown(metadata.value), ", ")
  {
    if metadata.None? || metadata.value == [] then "No metadata"
    else Join(Shown(metadata.value), ", ")
  }

  /** The entries of consecutive pairs are the entries of each part, in order. */
  lemma {:induction false} ShownAppend(a: Metadata, b: Metadata)
    ensures Shown(a + b) == Shown(a) + Shown(b)
    decreases |b|
  {
    if |b| == 0 {
      assert a + b == a;
    } else {
      var b0 := b[..|b| - 1];
      assert (a + b)[..|a + b| - 1] == a + b0;
      assert (a + b)[|a + b| - 1] == b[|b| - 1];
      ShownAppend(a, b0);
    }
  }

  /** An entry is shown exactly when it is a pair whose key is not "content". */
  lemma ShownMembers(m: Metadata, k: string, v: Scalar)
    ensures k != "content" && (k, v) in m ==> k + ": " + Show(v) in Shown(m)
    ensures forall e :: e in Shown(m) ==> exists i :: 0 <= i < |m| && m[i].0 != "content" && e == m[i].0 + ": " + Show(m[i].1)
  {
    if k != "content" && (k, v) in m {
      ShownIncludes(m, k, v);
    }
    forall e | e in Shown(m)
      ensures exists i :: 0 <= i < |m| && m[i].0 != "content" && e == m[i].0 + ": " + Show(m[i].1)
    {
      ShownFrom(m, e);
    }
  }

  lemma {:induction false} ShownIncludes(m: Metadata, k: string, v: Scalar)
    requires k != "content" && (k, v) in m
    ensures k + ": " + Show(v) in Shown(m)
    decreases |m|
  {
    var init := m[..|m| - 1];
    if (k, v) != m[|m| - 1] {
      var i :| 0 <= i < |m| && m[i] == (k, v);
      assert init[i] == (k, v);
      ShownIncludes(init, k, v);
    }
  }

  lemma {:induction false} ShownFrom(m: Metadata, e: string)
    requires e in Shown(m)
    ensures exists i :: 0 <= i < |m| && m[i].0 != "content" && e == m[i].0 + ": " + Show(m[i].1)
    decreases |m|
  {
    var init := m[..|m| - 1];
    if e in Shown(init) {
      ShownFrom(init, e);
      var i :| 0 <= i < |init| && init[i].0 != "content" && e == init[i].0 + ": " + Show(init[i].1);
      assert m[i] == init[i];
    } else {
      var n := |m| - 1;
      assert m[n].0 != "content" && e == m[n].0 + ": " + Show(m[n].1);
    }
  }


  /** Only non-content pairs are shown: removing all "content" pairs changes nothing. */
  function WithoutContent(m: Metadata): (r: Metadata)
    ensures forall i :: 0 <= i < |r| ==> r[i].0 != "content"
    ensures forall p :: p in m && p.0 != "content" ==> p in r
    ensures forall p :: p in r ==> p in m
    decreases |m|
  {
    if |m| == 0 then []
    else
      var init := m[..|m| - 1];
      var last := m[|m| - 1];
      assert forall p :: p in m ==> p in init || p == last;
      WithoutContent(init) + (if last.0 == "content" then [] else [last])
  }

  /** The formatted text never depends on the stored chunk text. */
  lemma {:induction false} ShownIgnoresContent(m: Metadata)
    ensures Shown(m) == Shown(WithoutContent(m))
    decreases |m|
  {
    if |m| > 0 {
      var init := m[..|m| - 1];
      var last := m[|m| - 1];
      ShownIgnoresContent(init);
      ShownAppend(WithoutContent(init), if last.0 == "content" then [] else [last]);
      if last.0 != "content" {
        assert [last][..0] == [];
      }
    }
  }

  /** Replacing the content value leaves the formatted text unchanged. */
  lemma FormatIgnoresContentValue(m: Metadata, i: int, v: Scalar)
    requires 0 <= i < |m| && m[i].0 == "content"
    ensures FormatMetadata(Some(m[i := ("content", v)])) == FormatMetadata(Some(m))
  {
    var m' := m[i := ("content", v)];
    assert m == m[..i] + [m[i]] + m[i + 1..];
    assert m' == m[..i] + [("content", v)] + m[i + 1..];
    ShownAppend(m[..i] + [m[i]], m[i + 1..]);
    ShownAppend(m[..i], [m[i]]);
    ShownAppend(m[..i] + [("content", v)], m[i + 1..]);
    ShownAppend(m[..i], [("content", v)]);
    assert [m[i]][..0] == [] && [("content", v)][..0] == [];
  }

  /** A mapping holding only the chunk text formats to the empty string, not "No metadata". */
  lemma ContentOnlyFormatsEmpty(v: Scalar)
    ensures FormatMetadata(Some([("content", v)])) == ""
  {
    assert [("content", v)][..0] == [];
  }

  /* ---------------------------------------------------------------------- */
  /* calculate_statistics                                                   */
  /* ---------------------------------------------------------------------- */

  /** What reading the collection's metadata produced: a failure, or the ids and the metadata entries. */
  datatype CollectionDump = GetFailed | Dump(ids: seq<string>, metadatas: seq<Option<Metadata>>)

  /** The counted statistics; `chunksPerDoc`, `tags` and `fileTypes` are the Counters as multisets. */
  datatype Stats = Stats(totalVectors: nat, documentIds: set<Scalar>, chunksPerDoc: multiset<Scalar>,
                         tags: multiset<string>, fileTypes: multiset<string>,
                         uniqueDocuments: nat, uniqueTags: nat, maxChunksInDoc: nat)

  /** The document a record is counted under; records without one count as "unknown". */
  function DocIdOf(m: Metadata): Scalar {
    Get(m, "document_id", Str("unknown"))
  }

  /** The tags one record counts; a truthy non-string tags value raises on `.split`. */
  function TagsOf(m: Metadata): (r: Result<seq<string>>)
    ensures r.Failure? <==> Lookup(m, "tags").Some? && Lookup(m, "tags").value.Int? && Lookup(m, "tags").value.i != 0
    ensures Lookup(m, "tags").None? ==> r == Success([])
    ensures r.Success? ==> forall i :: 0 <= i < |r.value| ==> r.value[i] != "" && IsStripped(r.value[i]) && ',' !in r.value[i]
  {
    var t := Get(m, "tags", Str(""));
    if !Truthy(t) then Success([])
    else if t.Int? then Failure(AttributeError)
    else Success(CleanSplit(t.s))
  }

  /** The last component of a slash-separated path. */
  function BaseName(p: string): (r: string)
    ensures '/' !in r
    ensures |r| <= |p| && r == p[|p| - |r|..]
  {
    p[LastIndex(p, '/') + 1..]
  }

  /**
   * Which metadata value the file type is read from: `filename`, as the
   * code does, or `path`, as intended (ingestion stores the stem under
   * `filename`, so its extension is gone; the path keeps it).
   */
  datatype TypeKey = FromFilename | FromPath {
    function Name(): string {
      if FromFilename? then "filename" else "path"
    }
  }

  /**
   * The file type counted for a record: the suffix of the last component of
   * the value under `key`, none for a falsy value or no suffix. A truthy
   * non-string value raises in `Path()`.
   */
  function FileType(key: TypeKey, m: Metadata): (r: Result<Option<string>>)
    ensures r.Failure? <==> Lookup(m, key.Name()).Some? && Lookup(m, key.Name()).value.Int? && Lookup(m, key.Name()).value.i != 0
    ensures Lookup(m, key.Name()).None? ==> r == Success(None)
    ensures r.Success? && r.value.Some? ==>
              Lookup(m, key.Name()).Some? && Lookup(m, key.Name()).value.Str? &&
              var v := Lookup(m, key.Name()).value.s;
              |r.value.value| >= 2 && r.value.value[0] == '.' && r.value.value == Suffix(BaseName(v))
              && EndsWith(v, r.value.value)
  {
    var f := Get(m, key.Name(), Str(""));
    if !Truthy(f) then Success(None)
    else if f.Int? then Failure(TypeError)
    else
      var ext := Suffix(BaseName(f.s));
      if ext == "" then Success(None)
      else
        SuffixEndsName(BaseName(f.s));
        Success(Some(ext))
  }

  predicate EndsWith(s: string, t: string) {
    |t| <= |s| && s[|s| - |t|..] == t
  }

  lemma SuffixEndsName(name: string)
    ensures EndsWith(name, Suffix(name))
  {
    StemSuffix(name);
  }

  /** The records that are counted: empty and missing entries are passed over. */
  function Present(metas: seq<Option<Metadata>>): (r: seq<Metadata>)
    ensures |r| <= |metas|
    ensures forall i :: 0 <= i < |r| ==> r[i] != []
    decreases |metas|
  {
    if |metas| == 0 then []
    else
      var last := metas[|metas| - 1];
      Present(metas[..|metas| - 1]) + (if last.Some? && last.value != [] then [last.value] else [])
  }

  /** No counted record raises. */
  predicate Countable(key: TypeKey, recs: seq<Metadata>) {
    forall i :: 0 <= i < |recs| ==> RecordOk(key, recs[i])
  }

  /** Counting the record raises nothing. */
  predicate RecordOk(key: TypeKey, m: Metadata) {
    TagsOf(m).Success? && FileType(key, m).Success?
  }

  /** The document id of every counted record, in order. */
  function DocIds(recs: seq<Metadata>): (r: seq<Scalar>)
    ensures |r| == |recs| && forall i :: 0 <= i < |r| ==> r[i] == DocIdOf(recs[i])
  {
    seq(|recs|, i requires 0 <= i < |recs| => DocIdOf(recs[i]))
  }

  /** Every tag occurrence of the counted records. */
  function TagBag(key: TypeKey, recs: seq<Metadata>): multiset<string>
    requires Countable(key, recs)
    decreases |recs|
  {
    if |recs| == 0 then multiset{}
    else TagBag(key, recs[..|recs| - 1]) + multiset(TagsOf(recs[|recs| - 1]).value)
  }

  /** Every file type of the counted records. */
  function TypeBag(key: TypeKey, recs: seq<Metadata>): multiset<string>
    requires Countable(key, recs)
    decreases |recs|
  {
    if |recs| == 0 then multiset{}
    else
      var t := FileType(key, recs[|recs| - 1]).value;
      TypeBag(key, recs[..|recs| - 1]) + (if t.Some? then multiset{t.value} else multiset{})
  }

  /** The largest count among the documents of `bag`, 0 for an empty one. */
  ghost predicate IsMaxCount(bag: multiset<Scalar>, max: nat) {
    && (forall d :: bag[d] <= max)
    && (max == 0 <==> |bag| == 0)
    && (max > 0 ==> exists d :: d in bag && bag[d] == max)
  }

  lemma PresentSnoc(metas: seq<Option<Metadata>>, i: int)
    requires 0 <= i < |metas|
    ensures Present(metas[..i + 1]) ==
            Present(metas[..i]) + (if metas[i].Some? && metas[i].value != [] then [metas[i].value] else [])
  {
    assert metas[..i + 1][..i] == metas[..i];
  }

  lemma CountableSnoc(key: TypeKey, recs: seq<Metadata>, m: Metadata)
    requires Countable(key, recs) && RecordOk(key, m)
    ensures Countable(key, recs + [m])
  {
    forall i | 0 <= i < |recs| + 1 ensures RecordOk(key, (recs + [m])[i]) {
      if i < |recs| {
        assert (recs + [m])[i] == recs[i];
      }
    }
  }

  lemma BagsSnoc(key: TypeKey, recs: seq<Metadata>, m: Metadata)
    requires Countable(key, recs) && RecordOk(key, m)
    ensures Countable(key, recs + [m])
    ensures TagBag(key, recs + [m]) == TagBag(key, recs) + multiset(TagsOf(m).value)
    ensures TypeBag(key, recs + [m]) == TypeBag(key, recs)
              + (if FileType(key, m).value.Some? then multiset{FileType(key, m).value.value} else multiset{})
    ensures DocIds(recs + [m]) == DocIds(recs) + [DocIdOf(m)]
  {
    CountableSnoc(key, recs, m);
    var all := recs + [m];
    assert all[..|all| - 1] == recs;
    assert all[|all| - 1] == m;
  }

  /** A non-empty record is among the counted ones. */
  lemma {:induction false} PresentMember(metas: seq<Option<Metadata>>, i: int)
    requires 0 <= i < |metas| && metas[i].Some? && metas[i].value != []
    ensures metas[i].value in Present(metas)
    decreases |metas|
  {
    if i < |metas| - 1 {
      var init := metas[..|metas| - 1];
      PresentMember(init, i);
    }
  }

  /** One raising record makes the whole count fail. */
  lemma NotCountable(key: TypeKey, metas: seq<Option<Metadata>>, i: int)
    requires 0 <= i < |metas| && metas[i].Some? && metas[i].value != []
    requires !RecordOk(key, metas[i].value)
    ensures !Countable(key, Present(metas))
  {
    PresentMember(metas, i);
  }

  /** No element occurs more often than the bag has elements. */
  lemma {:induction false} MultiplicityBound(bag: multiset<Scalar>, d: Scalar)
    ensures bag[d] <= |bag|
    decreases |bag|
  {
    if bag[d] > 0 {
      MultiplicityBound(bag - multiset{d}, d);
    }
  }

  lemma MaxBound(bag: multiset<Scalar>, max: nat)
    requires IsMaxCount(bag, max)
    ensures max <= |bag|
  {
    if max > 0 {
      var d :| d in bag && bag[d] == max;
      MultiplicityBound(bag, d);
    }
  }

  /** The four Counters and the running maximum of the loop over the records. */
  datatype Counters = Counters(docIds: set<Scalar>, chunks: multiset<Scalar>, tags: multiset<string>,
                               types: multiset<string>, max: nat)

  /** `c` holds what counting the records `recs` yields. */
  ghost predicate Tallies(key: TypeKey, recs: seq<Metadata>, c: Counters) {
    && Countable(key, recs)
    && c.chunks == multiset(DocIds(recs))
    && (forall d :: d in c.docIds <==> d in c.chunks)
    && c.tags == TagBag(key, recs)
    && c.types == TypeBag(key, recs)
    && IsMaxCount(c.chunks, c.max)
  }

  /** The loop body for one non-empty record; a raising record aborts the count. */
  function AddRecord(key: TypeKey, c: Counters, m: Metadata): (r: Result<Counters>)
    ensures r.Success? <==> RecordOk(key, m)
  {
    var d := DocIdOf(m);
    var chunks := c.chunks + multiset{d};
    var max := if chunks[d] > c.max then chunks[d] else c.max;
    match TagsOf(m)
    case Failure(e) => Failure(e)
    case Success(tags) =>
      match FileType(key, m)
      case Failure(e) => Failure(e)
      case Success(ft) =>
        Success(Counters(c.docIds + {d}, chunks, c.tags + multiset(tags),
                         c.types + (if ft.Some? then multiset{ft.value} else multiset{}), max))
  }

  lemma MaxStep(bag: multiset<Scalar>, max: nat, d: Scalar)
    requires IsMaxCount(bag, max)
    ensures var bag' := bag + multiset{d};
            IsMaxCount(bag', if bag'[d] > max then bag'[d] else max)
  {
    var bag' := bag + multiset{d};
    var max' := if bag'[d] > max then bag'[d] else max;
    assert d in bag';
    if max' == max {
      var w :| w in bag && bag[w] == max;
      assert w in bag' && bag'[w] == max;
    }
  }

  /** Adding a record keeps the counters in step with the records counted. */
  lemma AddRecordTallies(key: TypeKey, recs: seq<Metadata>, c: Counters, m: Metadata)
    requires Tallies(key, recs, c) && AddRecord(key, c, m).Success?
    ensures Tallies(key, recs + [m], AddRecord(key, c, m).value)
  {
    var d := DocIdOf(m);
    var r := AddRecord(key, c, m).value;
    BagsSnoc(key, recs, m);
    assert r.chunks == c.chunks + multiset{d};
    assert r.tags == c.tags + multiset(TagsOf(m).value);
    assert r.types == c.types + (if FileType(key, m).value.Some? then multiset{FileType(key, m).value.value} else multiset{});
    assert r.docIds == c.docIds + {d};
    MaxStep(c.chunks, c.max, d);
  }

  /** One entry of the loop: passed over when empty or missing, else counted. */
  function CountEntry(key: TypeKey, c: Counters, entry: Option<Metadata>): (r: Result<Counters>)
    ensures r.Failure? <==> entry.Some? && entry.value != [] && !RecordOk(key, entry.value)
  {
    if entry.Some? && entry.value != [] then AddRecord(key, c, entry.value) else Success(c)
  }

  lemma TalliesStep(key: TypeKey, metas: seq<Option<Metadata>>, i: int, c: Counters)
    requires 0 <= i < |metas| && Tallies(key, Present(metas[..i]), c) && CountEntry(key, c, metas[i]).Success?
    ensures Tallies(key, Present(metas[..i + 1]), CountEntry(key, c, metas[i]).value)
  {
    PresentSnoc(metas, i);
    var recs := Present(metas[..i]);
    if metas[i].Some? && metas[i].value != [] {
      var m := metas[i].value;
      AddRecordTallies(key, recs, c, m);
      assert Present(metas[..i + 1]) == recs + [m];
      assert CountEntry(key, c, metas[i]) == AddRecord(key, c, m);
    } else {
      assert Present(metas[..i + 1]) == recs;
      assert CountEntry(key, c, metas[i]) == Success(c);
    }
  }

  lemma TalliesStart(key: TypeKey, metas: seq<Option<Metadata>>)
    ensures Tallies(key, Present(metas[..0]), Counters({}, multiset{}, multiset{}, multiset{}, 0))
  {
    assert metas[..0] == [];
    assert Present([]) == [];
  }

  /**
   * `calculate_statistics`: None (the empty dictionary) when the read fails,
   * when there are no metadata entries, or when a counted record raises;
   * otherwise the Counters over the non-empty records. The code reads file
   * types with `FromFilename`; `FromPath` is the corrected count.
   */
  method CalculateStatistics(dump: CollectionDump, key: TypeKey) returns (r: Option<Stats>)
    ensures dump.GetFailed? || |dump.metadatas| == 0 ==> r.None?
    ensures dump.Dump? && |dump.metadatas| > 0 ==> (r.Some? <==> Countable(key, Present(dump.metadatas)))
    ensures r.Some? ==> var recs := Present(dump.metadatas);
              && r.value.totalVectors == |dump.ids|
              && r.value.chunksPerDoc == multiset(DocIds(recs))
              && |r.value.chunksPerDoc| == |recs|
              && (forall d :: d in r.value.documentIds <==> d in r.value.chunksPerDoc)
              && r.value.uniqueDocuments == |r.value.documentIds|
              && r.value.tags == TagBag(key, recs)
              && r.value.uniqueTags == |set t | t in r.value.tags|
              && r.value.fileTypes == TypeBag(key, recs)
              && IsMaxCount(r.value.chunksPerDoc, r.value.maxChunksInDoc)
              && r.value.maxChunksInDoc <= |recs|
  {
    if dump.GetFailed? || |dump.metadatas| == 0 {
      return None;
    }
    var metas := dump.metadatas;
    var c := Counters({}, multiset{}, multiset{}, multiset{}, 0);
    var i := 0;
    TalliesStart(key, metas);
    while i < |metas|
      invariant 0 <= i <= |metas|
      invariant Tallies(key, Present(metas[..i]), c)
    {
      var next := CountEntry(key, c, metas[i]);
      if next.Failure? {
        NotCountable(key, metas, i);
        return None;
      }
      TalliesStep(key, metas, i, c);
      c := next.value;
      i := i + 1;
    }
    assert metas[..i] == metas;
    MaxBound(c.chunks, c.max);
    r := Some(Stats(|dump.ids|, c.docIds, c.chunks, c.tags, c.types, |c.docIds|, |set t | t in c.tags|, c.max));
  }

  /* ---------------------------------------------------------------------- */
  /* The counts of what ingestion stored                                    */
  /* ---------------------------------------------------------------------- */

  /**
   * Counting tags splits the comma join written at ingestion: a chunk's
   * record counts exactly its document's tags, when no tag is blank, padded
   * or contains a comma.
   */
  lemma IngestedTagsCounted(doc: Document, i: nat, chunkId: string, text: string)
    requires forall k :: 0 <= k < |doc.tags| ==> doc.tags[k] != "" && IsStripped(doc.tags[k]) && ',' !in doc.tags[k]
    ensures TagsOf(Ingestion.ChunkMetadata(doc, i, chunkId, text)) == Success(doc.tags)
  {
    if |doc.tags| > 0 {
      CleanSplitJoin(doc.tags);
    }
  }

  lemma LastSeparator(dir: string, name: string)
    requires '/' !in name
    ensures BaseName(dir + "/" + name) == name
  {
    var p := dir + "/" + name;
    var j := LastIndex(p, '/');
    assert p[|dir|] == '/';
    assert p[|dir| + 1..] == name;
  }

  /**
   * As written, the file type comes from `filename`, which ingestion fills
   * with the file's stem: for a name with a single dot the extension is
   * gone and the file is not counted under any type.
   */
  lemma FileTypeLostAsWritten(doc: Document, i: nat, chunkId: string, text: string, name: string)
    requires '/' !in name && Count(name, '.') == 1 && HasSuffix(name)
    requires doc.name == Stem(name)
    ensures FileType(FromFilename, Ingestion.ChunkMetadata(doc, i, chunkId, text)) == Success(None)
  {
    StemOfSingleDot(name);
    var st := Stem(name);
    assert LastIndex(st, '/') == -1;
    assert BaseName(st) == st;
  }

  lemma PolicyName()
    ensures '/' !in "policy.pdf" && Count("policy.pdf", '.') == 1 && HasSuffix("policy.pdf")
    ensures Suffix("policy.pdf") == ".pdf" && Stem("policy.pdf") == "policy"
  {
    Ingestion.LastIndexAfter("policy", ".pdf");
    assert "policy" + ".pdf" == "policy.pdf";
  }

  lemma PolicyPath()
    ensures "data/raw/hr" + "/" + "policy.pdf" == "data/raw/hr/policy.pdf"
  {
  }

  /** The stored record of `data/raw/hr/policy.pdf`: no file type as written, ".pdf" as intended. */
  lemma FileTypeExample()
    ensures var doc := Document("d", "policy", "text", "data/raw/hr/policy.pdf", ["hr"]);
            var m := Ingestion.ChunkMetadata(doc, 0, "c", "text");
            FileType(FromFilename, m) == Success(None) && FileType(FromPath, m) == Success(Some(".pdf"))
  {
    var doc := Document("d", "policy", "text", "data/raw/hr/policy.pdf", ["hr"]);
    PolicyPath();
    PolicyName();
    FileTypeLostAsWritten(doc, 0, "c", "text", "policy.pdf");
    IngestedFileTypeCounted(doc, 0, "c", "text", "data/raw/hr", "policy.pdf");
  }

  /**
   * As intended, the file type comes from the stored path, whose last
   * component is the file name: an ingested supported file is counted under
   * its own extension.
   */
  lemma IngestedFileTypeCounted(doc: Document, i: nat, chunkId: string, text: string, dir: string, name: string)
    requires '/' !in name && doc.path == dir + "/" + name
    ensures FileType(FromPath, Ingestion.ChunkMetadata(doc, i, chunkId, text))
            == Success(if Suffix(name) == "" then None else Some(Suffix(name)))
    ensures Ingestion.IsSupportedFile(name) ==>
              FileType(FromPath, Ingestion.ChunkMetadata(doc, i, chunkId, text)).value.Some?
              && Lower(FileType(FromPath, Ingestion.ChunkMetadata(doc, i, chunkId, text)).value.value) in Ingestion.SupportedExtensions
  {
    var m := Ingestion.ChunkMetadata(doc, i, chunkId, text);
    LastSeparator(dir, name);
    PathFileType(m, doc.path);
    SupportedHasSuffix(name);
  }

  /** A non-empty stored path is counted under the suffix of its last component. */
  lemma PathFileType(m: Metadata, p: string)
    requires Lookup(m, "path") == Some(Str(p)) && |p| > 0
    ensures FileType(FromPath, m) == Success(if Suffix(BaseName(p)) == "" then None else Some(Suffix(BaseName(p))))
  {
  }

  /** A supported name has a suffix, and it is a supported extension up to case. */
  lemma SupportedHasSuffix(name: string)
    ensures Ingestion.IsSupportedFile(name) ==> Suffix(name) != "" && Lower(Suffix(name)) in Ingestion.SupportedExtensions
  {
    assert Lower("") == "";
  }
}

=== FILE: parser.dfy ===
/**
 * The document parser: tags derived from a file's directories, and the
 * Document it assembles around the text the partitioning library extracts.
 * Path parsing (`Path.parts`, `Path.name`) is supplied by the caller.
 */
module Parser {
  import opened Base
  import opened Text
  import opened Domain

  /** A path as the path library splits it. */
  datatype PathInfo = PathInfo(text: string, parts: seq<string>, name: string)

  /**
   * The tag directories: the path components between the first two and the
   * file name. The first two are dropped whatever they are.
   */
  function TagDirectories(parts: seq<string>): (dirs: seq<string>)
    ensures |parts| <= 3 ==> dirs == []
    ensures |parts| > 3 ==> |dirs| == |parts| - 3
    ensures forall i :: 0 <= i < |dirs| ==> dirs[i] == parts[i + 2]
  {
    if |parts| >= 3 then parts[2..|parts| - 1] else []
  }

  /**
   * Reference definition of hierarchical tags: the i-th tag joins the first
   * i + 1 directories with hyphens.
   */
  function HierarchicalTags(dirs: seq<string>): seq<string> {
    seq(|dirs|, i requires 0 <= i < |dirs| => Join(dirs[..i + 1], "-"))
  }

  /**
   * The tag extraction loop: the first directory on its own, then for every
   * deeper directory the chain from the first directory down to it.
   */
  method ExtractTagsFromPath(parts: seq<string>) returns (tags: seq<string>)
    ensures tags == HierarchicalTags(TagDirectories(parts))
    ensures |tags| == |TagDirectories(parts)|
  {
    var dirs := TagDirectories(parts);
    tags := [];
    var i := 0;
    while i < |dirs|
      invariant 0 <= i <= |dirs|
      invariant |tags| == i
      invariant forall k :: 0 <= k < i ==> tags[k] == Join(dirs[..k + 1], "-")
    {
      if i == 0 {
        tags := tags + [dirs[i]];
      }
      if i > 0 {
        var parentTag := dirs[0];
        var j := 1;
        while j < i + 1
          invariant 1 <= j <= i + 1
          invariant parentTag == Join(dirs[..j], "-")
        {
          JoinSnoc(dirs[..j], dirs[j], "-");
          assert dirs[..j] + [dirs[j]] == dirs[..j + 1];
          parentTag := parentTag + "-" + dirs[j];
          j := j + 1;
        }
        tags := tags + [parentTag];
      }
      i := i + 1;
    }
  }

  /** Each deeper tag extends the previous one by a hyphen and the next directory. */
  lemma TagsExtendPrevious(dirs: seq<string>, i: int)
    requires 1 <= i < |dirs|
    ensures HierarchicalTags(dirs)[0] == dirs[0]
    ensures HierarchicalTags(dirs)[i] == HierarchicalTags(dirs)[i - 1] + "-" + dirs[i]
  {
    JoinSnoc(dirs[..i], dirs[i], "-");
    assert dirs[..i] + [dirs[i]] == dirs[..i + 1];
    assert dirs[..1] == [dirs[0]];
  }

  /** Every tag starts with the first-level directory. */
  lemma {:induction false} TagsStartWithTopLevel(dirs: seq<string>, i: int)
    requires 0 <= i < |dirs|
    ensures |dirs[0]| <= |HierarchicalTags(dirs)[i]|
    ensures HierarchicalTags(dirs)[i][..|dirs[0]|] == dirs[0]
    decreases i
  {
    if i == 0 {
      assert dirs[..1] == [dirs[0]];
    } else {
      TagsStartWithTopLevel(dirs, i - 1);
      TagsExtendPrevious(dirs, i);
    }
  }

  /** The tags of a path as the parser computes them. */
  function PathTags(parts: seq<string>): (tags: seq<string>)
    ensures |parts| <= 3 ==> tags == []
    ensures |parts| > 3 ==> |tags| == |parts| - 3 && tags[0] == parts[2]
  {
    var dirs := TagDirectories(parts);
    if |dirs| > 0 then assert dirs[..1] == [dirs[0]]; HierarchicalTags(dirs)
    else HierarchicalTags(dirs)
  }

  /** The docstring's examples: one and two directories below the data root. */
  lemma DocstringExamples()
    ensures PathTags([".data", "raw", "hr", "policy.pdf"]) == ["hr"]
    ensures PathTags(["data", "raw", "hr", "regional", "policy.pdf"]) == ["hr", "hr-regional"]
    ensures PathTags([".data", "raw", "policy.pdf"]) == []
  {
    var dirs := TagDirectories(["data", "raw", "hr", "regional", "policy.pdf"]);
    assert dirs == ["hr", "regional"];
    assert dirs[..1] == ["hr"];
    assert dirs[..2] == ["hr", "regional"];
    assert Join(["hr", "regional"], "-") == "hr" + "-" + Join(["regional"], "-");
    var tags := HierarchicalTags(dirs);
    assert |tags| == 2 && tags[0] == "hr" && tags[1] == "hr-regional";
  }

  /**
   * `parse`: a fresh document id, the file's stem as name, the path text, the
   * derived tags, and the partitioned elements' text joined by newlines. A
   * failure of the partitioning library propagates.
   */
  method Parse(path: PathInfo, docId: string, elements: Result<seq<string>>) returns (r: Result<Document>)
    ensures elements.Failure? ==> r == Failure(elements.error)
    ensures elements.Success? ==> r.Success?
    ensures r.Success? ==> r.value.id == docId && r.value.path == path.text
    ensures r.Success? ==> r.value.name + Suffix(path.name) == path.name
    ensures r.Success? ==> r.value.tags == HierarchicalTags(TagDirectories(path.parts))
    ensures r.Success? ==> r.value.content == Join(elements.value, "\n")
    ensures r.Success? ==> r.value == ParsedDocument(path, docId, elements.value)
    ensures r.Success? && |elements.value| > 0 && (forall i :: 0 <= i < |elements.value| ==> '\n' !in elements.value[i])
            ==> Split(r.value.content, '\n') == elements.value
    ensures r.Success? && |elements.value| == 0 ==> r.value.content == ""
  {
    var name := Stem(path.name);
    StemSuffix(path.name);
    var tags := ExtractTagsFromPath(path.parts);
    if elements.Failure? {
      return Failure(elements.error);
    }
    var content := Join(elements.value, "\n");
    if |elements.value| > 0 && forall i :: 0 <= i < |elements.value| ==> '\n' !in elements.value[i] {
      SplitJoin(elements.value, '\n');
    }
    r := Success(Document(docId, name, content, path.text, tags));
  }

  /** The Document assembly as a function, for use by the other models. */
  function ParsedDocument(path: PathInfo, docId: string, elements: seq<string>): (d: Document)
    ensures d.id == docId && d.path == path.text && d.tags == PathTags(path.parts)
    ensures d.name + Suffix(path.name) == path.name
    ensures d.content == Join(elements, "\n")
    ensures |elements| > 0 && (forall i :: 0 <= i < |elements| ==> '\n' !in elements[i]) ==> Split(d.content, '\n') == elements
  {
    StemSuffix(path.name);
    var d := Document(docId, Stem(path.name), Join(elements, "\n"), path.text, PathTags(path.parts));
    if |elements| > 0 && (forall i :: 0 <= i < |elements| ==> '\n' !in elements[i]) then
      SplitJoin(elements, '\n');
      d
    else
      d
  }
}

=== FILE: pipeline.dfy ===
/**
 * How the services fit together: the batch the ingestion service builds
 * for one document is one the vector store accepts, and what it stores is
 * what a later search hands back to the question-answering service.
 */
module Pipeline {
  import opened Base
  import opened Text
  import opened Domain
  import Ingestion
  import ChromaStore

  /** The record id of chunk `i` is the document id and its chunk id around an underscore. */
  lemma ChunkRecordId(doc: Document, texts: seq<string>, chunkIds: seq<string>, i: int)
    requires |chunkIds| == |texts| && 0 <= i < |texts|
    ensures ChromaStore.RecordId(Ingestion.Metadatas(Ingestion.BuildChunks(doc, texts, chunkIds))[i])
            == doc.id + "_" + chunkIds[i]
    ensures ChromaStore.DocumentOf(Ingestion.Metadatas(Ingestion.BuildChunks(doc, texts, chunkIds))[i]) == Str(texts[i])
  {
    var m := Ingestion.Metadatas(Ingestion.BuildChunks(doc, texts, chunkIds))[i];
    assert Ingestion.DescribesChunk(m, doc, i, chunkIds[i], texts[i]);
  }

  /**
   * With underscore-free document and chunk ids (uuid4 strings) that are
   * pairwise distinct, the batch of one document never repeats a record id.
   */
  lemma BatchIdsDistinct(doc: Document, texts: seq<string>, chunkIds: seq<string>)
    requires |chunkIds| == |texts| && Distinct(chunkIds)
    requires '_' !in doc.id && forall i :: 0 <= i < |chunkIds| ==> '_' !in chunkIds[i]
    ensures Distinct(ChromaStore.MakeBatch(Ingestion.Metadatas(Ingestion.BuildChunks(doc, texts, chunkIds))).ids)
  {
    var metas := Ingestion.Metadatas(Ingestion.BuildChunks(doc, texts, chunkIds));
    var ids := ChromaStore.MakeBatch(metas).ids;
    forall i, j | 0 <= i < j < |ids| ensures ids[i] != ids[j] {
      ChunkRecordId(doc, texts, chunkIds, i);
      ChunkRecordId(doc, texts, chunkIds, j);
      if ids[i] == ids[j] {
        ChromaStore.RecordIdInjective(doc.id, chunkIds[i], doc.id, chunkIds[j]);
      }
    }
  }

  /**
   * The store accepts a document's batch exactly when the document has
   * chunks and the embedder returned one vector per chunk, and afterwards holds each chunk's vector, text and
   * metadata under its record id.
   */
  lemma IngestedBatchStored(c: ChromaStore.Collection, doc: Document, texts: seq<string>, chunkIds: seq<string>,
                            vectors: seq<Vector>)
    requires |chunkIds| == |texts| && Distinct(chunkIds)
    requires '_' !in doc.id && forall i :: 0 <= i < |chunkIds| ==> '_' !in chunkIds[i]
    ensures var metas := Ingestion.Metadatas(Ingestion.BuildChunks(doc, texts, chunkIds));
            var r := ChromaStore.AddDocuments(c, vectors, metas);
            && (r.Success? <==> |vectors| == |texts| && |texts| > 0)
            && (r.Success? ==> forall i :: 0 <= i < |texts| ==>
                  && doc.id + "_" + chunkIds[i] in r.value
                  && r.value[doc.id + "_" + chunkIds[i]] == ChromaStore.Entry(vectors[i], Str(texts[i]), metas[i]))
  {
    var metas := Ingestion.Metadatas(Ingestion.BuildChunks(doc, texts, chunkIds));
    BatchIdsDistinct(doc, texts, chunkIds);
    forall i | 0 <= i < |texts| {
      ChunkRecordId(doc, texts, chunkIds, i);
    }
  }

  /**
   * With the vector store as the ingestion's store, a document that splits
   * into no chunks is refused at the store call: it is logged as failing
   * there, stays out of the ledger, and is tried again on every run.
   */
  lemma EmptyDocumentNotRecorded(env: Ingestion.Env<ChromaStore.Collection>, st: Ingestion.State<ChromaStore.Collection>,
                                 path: string)
    requires forall c, v, m :: env.add(c, v, m) == ChromaStore.AddDocuments(c, v, m)
    requires path !in st.ledger
    requires env.parse(path).Success? && env.split(env.parse(path).value.content) == []
    ensures path !in Ingestion.Step(env, st, path).ledger
    ensures Ingestion.LastEvent(env, st, path).FailedEarly()
    ensures env.embed([]).Success? ==>
              Ingestion.LastEvent(env, st, path) == Ingestion.Failed(path, Ingestion.Storing, ValueError("Expected IDs to be a non-empty list, got 0 IDs"))
  {
    var doc := env.parse(path).value;
    var chunks := Ingestion.BuildChunks(doc, [], Ingestion.FreshIds(env.uuid, st.nextUuid, 0));
    assert Ingestion.ChunkTexts(chunks) == [];
    assert Ingestion.Metadatas(chunks) == [];
    if env.embed([]).Success? {
      assert env.add(st.store, env.embed([]).value, []).Failure?;
    }
  }
}

=== FILE: qa.dfy ===
/**
 * The question-answering service: embed the question, search the store,
 * keep the usable passages of the results in order, and either answer with
 * a fixed message (no passages) or hand question and passages to the
 * language model and return its answer as is.
 *
 * The embedder, the store's search and the language model are the
 * function-valued fields of `QaEnv`; an exception any of them raises is not
 * caught by the service and becomes the `Failure` of the reply.
 */
module QA {
  import opened Base
  import opened Domain
  import ChromaStore

  /** The answer given when no retrieved result has usable text. */
  const Fallback: string := "I couldn't find any relevant information to answer your question."

  /** A result's `metadata` entry: missing, present but None, or a mapping. */
  datatype MetadataField = NoMetadataKey | NullMetadata | HasMetadata(m: Metadata)

  /**
   * One search result as the service reads it. `content` is None both when
   * the key is missing and when it holds None, as the service does not tell
   * them apart.
   */
  datatype Hit = Hit(content: Option<Scalar>, metadata: MetadataField)

  /**
   * The text one result contributes before the truthiness test: its own
   * content when not None, else the metadata's `content` (default ""),
   * else nothing. A None metadata raises AttributeError on `.get`.
   */
  function Passage(h: Hit): (r: Result<Option<Scalar>>)
    ensures r.Failure? <==> h.content.None? && h.metadata.NullMetadata?
    ensures r.Failure? ==> r.error == AttributeError
    ensures h.content.Some? ==> r == Success(h.content)
    ensures h.content.None? && h.metadata.NoMetadataKey? ==> r == Success(None)
    ensures h.content.None? && h.metadata.HasMetadata? ==>
              r == Success(Some(if Lookup(h.metadata.m, "content").Some? then Lookup(h.metadata.m, "content").value else Str("")))
  {
    match h.content
    case Some(c) => Success(Some(c))
    case None =>
      match h.metadata
      case NoMetadataKey => Success(None)
      case NullMetadata => Failure(AttributeError)
      case HasMetadata(m) => Success(Some(Get(m, "content", Str(""))))
  }

  /** The passage is kept: it is present and truthy. */
  predicate Usable(p: Option<Scalar>) {
    p.Some? && Truthy(p.value)
  }

  /**
   * Reference definition of the context list: the usable passages of the
   * results in result order; the first result whose passage raises aborts.
   */
  function Context(hits: seq<Hit>): (r: Result<seq<Scalar>>)
    ensures r.Failure? ==> r.error == AttributeError
    ensures r.Success? ==> |r.value| <= |hits|
    ensures r.Success? ==> forall k :: 0 <= k < |r.value| ==> Truthy(r.value[k])
    decreases |hits|
  {
    if |hits| == 0 then Success([])
    else
      match Context(hits[..|hits| - 1])
      case Failure(e) => Failure(e)
      case Success(ctx) =>
        match Passage(hits[|hits| - 1])
        case Failure(e) => Failure(e)
        case Success(p) => Success(if Usable(p) then ctx + [p.value] else ctx)
  }

  /** The context fails exactly when some result's passage raises. */
  lemma {:induction false} ContextFails(hits: seq<Hit>)
    ensures Context(hits).Failure? <==> exists i :: 0 <= i < |hits| && Passage(hits[i]).Failure?
    decreases |hits|
  {
    if |hits| > 0 {
      var init := hits[..|hits| - 1];
      ContextFails(init);
      assert forall i :: 0 <= i < |init| ==> init[i] == hits[i];
      if exists i :: 0 <= i < |hits| && Passage(hits[i]).Failure? {
        var i :| 0 <= i < |hits| && Passage(hits[i]).Failure?;
        if i < |init| {
          assert Passage(init[i]).Failure?;
        }
      }
    }
  }

  /** The context of consecutive result lists is the concatenation of their contexts, so the order is kept. */
  lemma {:induction false} ContextAppend(a: seq<Hit>, b: seq<Hit>)
    requires Context(a).Success? && Context(b).Success?
    ensures Context(a + b) == Success(Context(a).value + Context(b).value)
    decreases |b|
  {
    if |b| == 0 {
      assert a + b == a;
      assert Context(a).value + Context(b).value == Context(a).value;
    } else {
      var b0 := b[..|b| - 1];
      assert Context(b0).Success? && Passage(b[|b| - 1]).Success?;
      assert (a + b)[..|a + b| - 1] == a + b0;
      assert (a + b)[|a + b| - 1] == b[|b| - 1];
      ContextAppend(a, b0);
      var p := Passage(b[|b| - 1]).value;
      var ca, cb := Context(a).value, Context(b0).value;
      if Usable(p) {
        assert Context(a + b) == Success(ca + cb + [p.value]);
        assert ca + cb + [p.value] == ca + (cb + [p.value]);
      }
    }
  }

  /** A kept passage is exactly a usable one: membership in both directions. */
  lemma {:induction false} ContextMembers(hits: seq<Hit>, c: Scalar)
    requires Context(hits).Success?
    ensures c in Context(hits).value <==>
              exists i :: 0 <= i < |hits| && Passage(hits[i]) == Success(Some(c)) && Truthy(c)
    decreases |hits|
  {
    if |hits| > 0 {
      var init := hits[..|hits| - 1];
      ContextMembers(init, c);
      assert forall i :: 0 <= i < |init| ==> init[i] == hits[i];
      if exists i :: 0 <= i < |hits| && Passage(hits[i]) == Success(Some(c)) && Truthy(c) {
        var i :| 0 <= i < |hits| && Passage(hits[i]) == Success(Some(c)) && Truthy(c);
        if i < |init| {
          assert Passage(init[i]) == Success(Some(c));
        }
      }
    }
  }

  /** A result whose own content is an empty string is dropped, whatever its metadata holds. */
  lemma EmptyContentDropped(hits: seq<Hit>, h: Hit)
    requires Context(hits).Success? && h.content == Some(Str(""))
    ensures Context(hits + [h]) == Context(hits)
  {
    assert (hits + [h])[..|hits|] == hits;
  }

  /** The context list as the service's extraction loop builds it, result by result. */
  method ExtractContext(hits: seq<Hit>) returns (r: Result<seq<Scalar>>)
    ensures r == Context(hits)
  {
    var chunks: seq<Scalar> := [];
    var i := 0;
    while i < |hits|
      invariant 0 <= i <= |hits|
      invariant Context(hits[..i]) == Success(chunks)
    {
      assert hits[..i + 1][..i] == hits[..i];
      var content := hits[i].content;
      if content.None? && !hits[i].metadata.NoMetadataKey? {
        if hits[i].metadata.NullMetadata? {
          assert Context(hits[..i + 1]).Failure?;
          ContextStaysFailed(hits, i + 1);
          return Failure(AttributeError);
        }
        content := Some(Get(hits[i].metadata.m, "content", Str("")));
      }
      if content.Some? && Truthy(content.value) {
        chunks := chunks + [content.value];
      }
      i := i + 1;
    }
    assert hits[..i] == hits;
    r := Success(chunks);
  }

  /** Once a prefix fails, every longer prefix fails with the same error. */
  lemma {:induction false} ContextStaysFailed(hits: seq<Hit>, n: int)
    requires 0 <= n <= |hits| && Context(hits[..n]).Failure?
    ensures Context(hits) == Context(hits[..n])
    decreases |hits| - n
  {
    if n < |hits| {
      assert hits[..n + 1][..n] == hits[..n];
      ContextStaysFailed(hits, n + 1);
    } else {
      assert hits[..n] == hits;
    }
  }

  /** The collaborators the service was built with. */
  datatype QaEnv = QaEnv(
    embed: seq<string> -> Result<seq<Vector>>,
    search: (Vector, int) -> Result<seq<Hit>>,
    answer: (string, seq<Scalar>) -> Result<string>)

  /** A call into a collaborator, in the order the service makes them. */
  datatype QaCall = EmbedQuery(texts: seq<string>) | Search(vector: Vector, topK: int) | Answer(question: string, context: seq<Scalar>)

  /** What `ask` returned or raised, and the calls it made on the way. */
  datatype Reply = Reply(result: Result<string>, calls: seq<QaCall>)

  /** `ask`: embed, search, extract, then fall back or answer. */
  function Ask(env: QaEnv, q: Query): (r: Reply)
    ensures 1 <= |r.calls| <= 3 && r.calls[0] == EmbedQuery([q.text])
    ensures env.embed([q.text]).Failure? ==> r == Reply(Failure(env.embed([q.text]).error), [EmbedQuery([q.text])])
    ensures env.embed([q.text]) == Success([]) ==> r == Reply(Failure(IndexError), [EmbedQuery([q.text])])
    ensures |r.calls| >= 2 <==> env.embed([q.text]).Success? && |env.embed([q.text]).value| > 0
    ensures |r.calls| >= 2 ==> r.calls[1] == Search(env.embed([q.text]).value[0], q.topK)
    ensures |r.calls| >= 2 && env.search(r.calls[1].vector, q.topK).Success?
            && Context(env.search(r.calls[1].vector, q.topK).value) == Success([])
            ==> r == Reply(Success(Fallback), r.calls[..2])
    ensures |r.calls| >= 2 && env.search(r.calls[1].vector, q.topK).Failure?
            ==> r == Reply(Failure(env.search(r.calls[1].vector, q.topK).error), r.calls[..2])
    ensures |r.calls| >= 2 && env.search(r.calls[1].vector, q.topK).Success?
            && Context(env.search(r.calls[1].vector, q.topK).value).Failure?
            ==> r == Reply(Failure(AttributeError), r.calls[..2])
    ensures |r.calls| == 3 <==>
              |r.calls| >= 2 && env.search(r.calls[1].vector, q.topK).Success?
              && Context(env.search(r.calls[1].vector, q.topK).value).Success?
              && |Context(env.search(r.calls[1].vector, q.topK).value).value| > 0
    ensures |r.calls| == 3 ==>
              && r.calls[2] == Answer(q.text, Context(env.search(r.calls[1].vector, q.topK).value).value)
              && r.result == env.answer(q.text, r.calls[2].context)
    ensures forall k :: 0 <= k < |r.calls| - 1 ==> !r.calls[k].Answer?
  {
    var calls := [EmbedQuery([q.text])];
    match env.embed([q.text])
    case Failure(e) => Reply(Failure(e), calls)
    case Success(vectors) =>
      if |vectors| == 0 then Reply(Failure(IndexError), calls)
      else
        var calls := calls + [Search(vectors[0], q.topK)];
        match env.search(vectors[0], q.topK)
        case Failure(e) => Reply(Failure(e), calls)
        case Success(hits) =>
          match Context(hits)
          case Failure(e) => Reply(Failure(e), calls)
          case Success(ctx) =>
            if |ctx| == 0 then Reply(Success(Fallback), calls)
            else Reply(env.answer(q.text, ctx), calls + [Answer(q.text, ctx)])
  }

  /** The number of language-model calls in a call list. */
  function AnswerCalls(calls: seq<QaCall>): nat {
    if |calls| == 0 then 0 else AnswerCalls(calls[..|calls| - 1]) + (if calls[|calls| - 1].Answer? then 1 else 0)
  }

  lemma {:induction false} NoAnswerCalls(calls: seq<QaCall>)
    requires forall k :: 0 <= k < |calls| ==> !calls[k].Answer?
    ensures AnswerCalls(calls) == 0
    decreases |calls|
  {
    if |calls| > 0 {
      NoAnswerCalls(calls[..|calls| - 1]);
    }
  }

  /** The language model is called at most once, and exactly when there is context to give it. */
  lemma AnswerAtMostOnce(env: QaEnv, q: Query)
    ensures AnswerCalls(Ask(env, q).calls) <= 1
    ensures AnswerCalls(Ask(env, q).calls) == 1 <==> |Ask(env, q).calls| == 3
  {
    var calls := Ask(env, q).calls;
    var init := calls[..|calls| - 1];
    NoAnswerCalls(init);
    if |calls| < 3 {
      assert !calls[|calls| - 1].Answer?;
    }
  }

  /** The query's tags are never read: changing them changes neither the answer nor the calls. */
  lemma AnswerIgnoresTags(env: QaEnv, q: Query, tags: Option<seq<string>>)
    ensures Ask(env, q.(tags := tags)) == Ask(env, q)
  {
  }

  /**
   * How the vector store's search results reach the service: `content` is
   * the stored document (None when the database returned none) and the
   * `metadata` key is always present, possibly None.
   */
  function HitOf(r: ChromaStore.SearchResult): (h: Hit)
    ensures h.content == r.content
    ensures !h.metadata.NoMetadataKey?
    ensures h.metadata.HasMetadata? <==> r.metadata.Some?
  {
    Hit(r.content, if r.metadata.Some? then HasMetadata(r.metadata.value) else NullMetadata)
  }

  function HitsOf(results: seq<ChromaStore.SearchResult>): (hits: seq<Hit>)
    ensures |hits| == |results|
    ensures forall i :: 0 <= i < |hits| ==> hits[i] == HitOf(results[i])
  {
    seq(|results|, i requires 0 <= i < |results| => HitOf(results[i]))
  }

  /**
   * Results drawn from a collection never raise during extraction, and the
   * context is made of the truthy stored documents of those results.
   */
  lemma StoredDocumentsFormContext(c: ChromaStore.Collection, rows: ChromaStore.QueryRows, d: Scalar)
    requires ChromaStore.RowsFrom(c, rows)
    ensures ChromaStore.FormatResults(rows).Success?
    ensures Context(HitsOf(ChromaStore.FormatResults(rows).value)).Success?
    ensures d in Context(HitsOf(ChromaStore.FormatResults(rows).value)).value <==>
              Truthy(d) && exists i :: 0 <= i < |rows.ids| && c[rows.ids[i]].document == d
  {
    var results := ChromaStore.FormatResults(rows).value;
    var hits := HitsOf(results);
    ContextFails(hits);
    ContextMembers(hits, d);
    if Truthy(d) && exists i :: 0 <= i < |rows.ids| && c[rows.ids[i]].document == d {
      var i :| 0 <= i < |rows.ids| && c[rows.ids[i]].document == d;
      assert Passage(hits[i]) == Success(Some(d));
    }
  }
}

=== FILE: text.dfy ===
/**
 * The Python string operations the system relies on: `str.strip()`,
 * `str.split(sep)`, `sep.join(parts)`, `str.lower()` and the `suffix` /
 * `stem` of a path's final component.
 */
module Text {

  /** Python's str.isspace() for one character (what str.strip() removes). */
  predicate IsSpace(c: char) {
    var n := c as int;
    n == 32 || 9 <= n <= 13 || 28 <= n <= 31 || n == 0x85 || n == 0xA0
    || n == 0x1680 || 0x2000 <= n <= 0x200A || n == 0x2028 || n == 0x2029
    || n == 0x202F || n == 0x205F || n == 0x3000
  }

  predicate AllSpace(s: string) {
    forall k :: 0 <= k < |s| ==> IsSpace(s[k])
  }

  /** A string that strip() leaves alone: empty, or not bordered by whitespace. */
  predicate IsStripped(s: string) {
    |s| == 0 || (!IsSpace(s[0]) && !IsSpace(s[|s| - 1]))
  }

  /** Number of whitespace characters at the start of `s`. */
  function Leading(s: string): (n: nat)
    ensures n <= |s|
    ensures forall k :: 0 <= k < n ==> IsSpace(s[k])
    ensures n < |s| ==> !IsSpace(s[n])
  {
    if |s| > 0 && IsSpace(s[0]) then 1 + Leading(s[1..]) else 0
  }

  /** Number of whitespace characters at the end of `s`. */
  function Trailing(s: string): (n: nat)
    ensures n <= |s|
    ensures forall k :: |s| - n <= k < |s| ==> IsSpace(s[k])
    ensures n < |s| ==> !IsSpace(s[|s| - n - 1])
  {
    if |s| > 0 && IsSpace(s[|s| - 1]) then 1 + Trailing(s[..|s| - 1]) else 0
  }

  /** str.strip(): removes leading and trailing whitespace. */
  function Strip(s: string): (r: string)
    ensures IsStripped(r)
    ensures var i := Leading(s);
            i + |r| <= |s| && r == s[i..i + |r|] && AllSpace(s[..i]) && AllSpace(s[i + |r|..])
  {
    var i := Leading(s);
    if i == |s| then
      assert AllSpace(s[..i]) by { assert forall k :: 0 <= k < i ==> s[..i][k] == s[k]; }
      ""
    else
      var j := |s| - Trailing(s);
      assert i < j;
      assert AllSpace(s[..i]) by { assert forall k :: 0 <= k < i ==> s[..i][k] == s[k]; }
      assert AllSpace(s[j..]) by { assert forall k :: 0 <= k < |s| - j ==> s[j..][k] == s[j + k]; }
      s[i..j]
  }

  lemma StripKeepsChars(s: string, c: char)
    requires c in Strip(s)
    ensures c in s
  {
    var r := Strip(s);
    var i := Leading(s);
    var k :| 0 <= k < |r| && r[k] == c;
    assert s[i + k] == r[k];
  }

  /** strip() changes nothing exactly when the string is already stripped. */
  lemma StripFixedPoint(s: string)
    ensures Strip(s) == s <==> IsStripped(s)
  {
    if IsStripped(s) && |s| > 0 {
      assert Leading(s) == 0;
      assert Trailing(s) == 0;
      assert s[0..|s|] == s;
    }
  }

  /** strip() of a string made only of whitespace is empty, and conversely. */
  lemma StripEmptyIffAllSpace(s: string)
    ensures Strip(s) == "" <==> AllSpace(s)
  {
    if AllSpace(s) && |s| > 0 {
      assert Leading(s) == |s|;
    }
  }

  /** sep.join(parts). */
  function Join(parts: seq<string>, sep: string): (r: string)
    ensures |parts| == 1 ==> r == parts[0]
  {
    if |parts| == 0 then ""
    else if |parts| == 1 then parts[0]
    else parts[0] + sep + Join(parts[1..], sep)
  }

  /** Extending the first part of a join extends the joined text at the front. */
  lemma JoinExtendFirst(p: string, parts: seq<string>, sep: string)
    requires |parts| >= 1
    ensures Join([p + parts[0]] + parts[1..], sep) == p + Join(parts, sep)
  {
    var q := [p + parts[0]] + parts[1..];
    assert q[1..] == parts[1..];
  }

  /** Joining one more part appends the separator and that part. */
  lemma {:induction false} JoinSnoc(parts: seq<string>, x: string, sep: string)
    requires |parts| >= 1
    ensures Join(parts + [x], sep) == Join(parts, sep) + sep + x
    decreases |parts|
  {
    if |parts| == 1 {
      assert (parts + [x])[1..] == [x];
    } else {
      assert (parts + [x])[1..] == parts[1..] + [x];
      JoinSnoc(parts[1..], x, sep);
    }
  }

  /** Number of occurrences of `c` in `s`. */
  function Count(s: string, c: char): nat {
    if |s| == 0 then 0 else (if s[0] == c then 1 else 0) + Count(s[1..], c)
  }

  /**
   * str.split(sep) for a one-character separator: the maximal pieces between
   * separators, one more piece than there are separators.
   */
  function Split(s: string, sep: char): (r: seq<string>)
    ensures |r| == Count(s, sep) + 1
    ensures forall i :: 0 <= i < |r| ==> sep !in r[i]
    ensures Join(r, [sep]) == s
    decreases |s|
  {
    if |s| == 0 then [""]
    else if s[0] == sep then
      var rest := Split(s[1..], sep);
      assert ([""] + rest)[1..] == rest;
      [""] + rest
    else
      var rest := Split(s[1..], sep);
      JoinExtendFirst([s[0]], rest, [sep]);
      [[s[0]] + rest[0]] + rest[1..]
  }

  lemma {:induction false} SplitNoSep(x: string, sep: char)
    requires sep !in x
    ensures Split(x, sep) == [x]
    decreases |x|
  {
    if |x| > 0 {
      SplitNoSep(x[1..], sep);
      assert [x[0]] + x[1..] == x;
    }
  }

  lemma {:induction false} SplitAfterPiece(x: string, y: string, sep: char)
    requires sep !in x
    ensures Split(x + [sep] + y, sep) == [x] + Split(y, sep)
    decreases |x|
  {
    var s := x + [sep] + y;
    if |x| == 0 {
      assert s[1..] == y;
    } else {
      assert s[1..] == x[1..] + [sep] + y;
      SplitAfterPiece(x[1..], y, sep);
      assert [x[0]] + x[1..] == x;
    }
  }

  /** Splitting a join recovers the parts when no part holds the separator. */
  lemma {:induction false} SplitJoin(parts: seq<string>, sep: char)
    requires |parts| >= 1
    requires forall i :: 0 <= i < |parts| ==> sep !in parts[i]
    ensures Split(Join(parts, [sep]), sep) == parts
    decreases |parts|
  {
    if |parts| == 1 {
      SplitNoSep(parts[0], sep);
    } else {
      SplitJoin(parts[1..], sep);
      SplitAfterPiece(parts[0], Join(parts[1..], [sep]), sep);
      assert [parts[0]] + parts[1..] == parts;
    }
  }

  /** The stripped pieces, empty ones dropped, order kept. */
  function CleanPieces(pieces: seq<string>): (r: seq<string>)
    ensures |r| <= |pieces|
    ensures forall i :: 0 <= i < |r| ==> r[i] != "" && IsStripped(r[i])
  {
    if |pieces| == 0 then []
    else
      var t := Strip(pieces[0]);
      (if t != "" then [t] else []) + CleanPieces(pieces[1..])
  }

  lemma {:induction false} CleanPiecesAvoids(pieces: seq<string>, c: char)
    requires forall i :: 0 <= i < |pieces| ==> c !in pieces[i]
    ensures forall i :: 0 <= i < |CleanPieces(pieces)| ==> c !in CleanPieces(pieces)[i]
    decreases |pieces|
  {
    if |pieces| > 0 {
      CleanPiecesAvoids(pieces[1..], c);
      if c in Strip(pieces[0]) { StripKeepsChars(pieces[0], c); }
    }
  }

  /** Pieces that are already non-empty and stripped pass through unchanged. */
  lemma {:induction false} CleanPiecesFixed(pieces: seq<string>)
    requires forall i :: 0 <= i < |pieces| ==> pieces[i] != "" && IsStripped(pieces[i])
    ensures CleanPieces(pieces) == pieces
    decreases |pieces|
  {
    if |pieces| > 0 {
      var t := Strip(pieces[0]);
      StripFixedPoint(pieces[0]);
      assert t == pieces[0];
      CleanPiecesFixed(pieces[1..]);
      assert CleanPieces(pieces) == [t] + CleanPieces(pieces[1..]);
      assert [pieces[0]] + pieces[1..] == pieces;
    }
  }

  /** Every piece is whitespace only exactly when nothing survives cleaning. */
  lemma {:induction false} CleanPiecesEmpty(pieces: seq<string>)
    ensures CleanPieces(pieces) == [] <==> forall i :: 0 <= i < |pieces| ==> AllSpace(pieces[i])
    decreases |pieces|
  {
    if |pieces| > 0 {
      var rest := pieces[1..];
      StripEmptyIffAllSpace(pieces[0]);
      CleanPiecesEmpty(rest);
      assert CleanPieces(pieces) == (if Strip(pieces[0]) != "" then [Strip(pieces[0])] else []) + CleanPieces(rest);
      if CleanPieces(pieces) == [] {
        forall i | 0 <= i < |pieces| ensures AllSpace(pieces[i]) {
          if i > 0 { assert pieces[i] == rest[i - 1]; }
        }
      }
    }
  }


  /**
   * Split on commas, strip each piece and drop the empty ones: the tag
   * reading used both for user input and for stored tag strings.
   */
  function CleanSplit(s: string): (r: seq<string>)
    ensures |r| <= Count(s, ',') + 1
    ensures forall i :: 0 <= i < |r| ==> r[i] != "" && IsStripped(r[i]) && ',' !in r[i]
  {
    var pieces := Split(s, ',');
    CleanPiecesAvoids(pieces, ',');
    CleanPieces(pieces)
  }

  /** Reading back a comma join of clean tags gives the same tags. */
  lemma CleanSplitJoin(tags: seq<string>)
    requires |tags| >= 1
    requires forall i :: 0 <= i < |tags| ==> tags[i] != "" && IsStripped(tags[i]) && ',' !in tags[i]
    ensures CleanSplit(Join(tags, ",")) == tags
  {
    SplitJoin(tags, ',');
    CleanPiecesFixed(tags);
  }

  /** A text all of whose characters are whitespace has only whitespace pieces. */
  lemma {:induction false} SplitAllSpace(s: string, sep: char)
    requires AllSpace(s)
    requires !IsSpace(sep)
    ensures forall i :: 0 <= i < |Split(s, sep)| ==> AllSpace(Split(s, sep)[i])
    decreases |s|
  {
    if |s| > 0 {
      SplitAllSpace(s[1..], sep);
    }
  }

  /** ASCII lower-casing of one character. */
  function LowerChar(c: char): char {
    if 'A' <= c <= 'Z' then (c as int + 32) as char else c
  }

  /** str.lower(), restricted to the ASCII letters. */
  function Lower(s: string): (r: string)
    ensures |r| == |s|
  {
    seq(|s|, k requires 0 <= k < |s| => LowerChar(s[k]))
  }

  /** str.rfind(c): the last index of `c` in `s`, or -1. */
  function LastIndex(s: string, c: char): (i: int)
    ensures -1 <= i < |s|
    ensures i >= 0 ==> s[i] == c
    ensures forall k :: i < k < |s| ==> s[k] != c
  {
    if |s| == 0 then -1
    else if s[|s| - 1] == c then |s| - 1
    else LastIndex(s[..|s| - 1], c)
  }

  /** Whether a final path component has a suffix (CPython's pathlib rule). */
  predicate HasSuffix(name: string) {
    var i := LastIndex(name, '.');
    0 < i < |name| - 1
  }

  /** Path.suffix of a final path component `name`. */
  function Suffix(name: string): (r: string)
    ensures r == "" || (r[0] == '.' && '.' !in r[1..] && |r| >= 2)
  {
    if HasSuffix(name) then name[LastIndex(name, '.')..] else ""
  }

  /** Path.stem of a final path component `name`. */
  function Stem(name: string): string {
    if HasSuffix(name) then name[..LastIndex(name, '.')] else name
  }

  /** The stem and the suffix of a name put back together give the name. */
  lemma StemSuffix(name: string)
    ensures Stem(name) + Suffix(name) == name
    ensures HasSuffix(name) ==> |Suffix(name)| >= 2 && Suffix(name)[0] == '.'
  {
  }

  /** A stem never has a suffix of its own when its name has exactly one dot. */
  lemma StemOfSingleDot(name: string)
    requires Count(name, '.') == 1
    requires HasSuffix(name)
    ensures Suffix(Stem(name)) == ""
  {
    var i := LastIndex(name, '.');
    var st := Stem(name);
    assert st == name[..i];
    CountSplit(name, i);
    if '.' in st {
      var k :| 0 <= k < |st| && st[k] == '.';
      CountPositive(st, k);
      assert false;
    }
  }

  lemma {:induction false} CountSplit(s: string, i: int)
    requires 0 <= i < |s| && s[i] == '.'
    ensures Count(s, '.') == Count(s[..i], '.') + 1 + Count(s[i + 1..], '.')
    decreases |s|
  {
    if i > 0 {
      CountSplit(s[1..], i - 1);
      assert s[1..][..i - 1] == s[..i][1..];
      assert s[1..][i..] == s[i + 1..];
    } else {
      assert s[1..] == s[i + 1..];
    }
  }

  lemma {:induction false} CountPositive(s: string, k: int)
    requires 0 <= k < |s| && s[k] == '.'
    ensures Count(s, '.') >= 1
    decreases |s|
  {
    if k > 0 { CountPositive(s[1..], k - 1); }
  }
}
